=== FILE: README.md ===
# Seattle building energy prediction service — Dafny model

The repository trains a regression pipeline on Seattle building-energy data and serves
it behind one endpoint, `POST /predict`. This project models the data-shape logic that
sits around the opaque regressor, and proves properties of it:

- **The request schema** (`BuildingData`, `Input`). It is a flat 17-field record with
  per-field range constraints. The field `PropertyGFABuilding_s` is sent on the wire as
  `"PropertyGFABuilding(s)"`, and an extra `non_negative_ints` validator runs on the
  integer fields. Module `Schema` (`schema.dfy`).
- **Training-time feature derivation** (`build_features`). It adds five derived columns,
  each only when the column is absent and its source columns are present. Module
  `Features` (`features.dfy`).
- **The training script's data plumbing.** This covers the final feature list, its
  numeric/categorical split, the `dropna` completeness filter, the projection onto the
  final features, and the feature-name list saved with the model. Module `Training`
  (`training.dfy`).
- **The serving path** (`EnergyConsumptionService.predict`). The record is dumped by
  alias, projected onto the stored feature names (or passed through when there are
  none), and given to the regressor. The prediction is clamped at zero. Module `Serving`
  (`service.dfy`).

Shared definitions live in `wrappers.dfy` (`Option`, `Result`) and `values.dfy`:
- JSON values (`Value`).
- Insertion-ordered dictionaries (`Dict`, a sequence of key/value pairs), because a
  Python dict's key order becomes a DataFrame's column order.
- `Lookup`, where the later binding wins, as when a JSON object repeats a key.

A table (`Frame`) is an ordered list of column names plus rows of type
`map<string, Value>`. A NaN cell is a key absent from its row. Whether a column exists
is a property of the table, not of a row, as in `"x" in df.columns`. Numbers are `int`
and `real`, not IEEE floats.

The regressor is the `model` field of the service context: a function from the one-row
input table to a `real`. Nothing is assumed about it.

The main result crosses files:
- Every record's dump by alias has as its keys exactly the feature names stored at
  training time, in the same order (`Serving.DumpKeysAreFinalFeatures`).
- So for any training run that succeeds, the projection `df[self.feature_names]` is the
  identity and cannot raise (`Serving.TrainedServicePredicts`).
- The response is the clamped, non-negative prediction on the dump itself.
- Reordering a payload's keys changes nothing (`Serving.HandleReorder`).

Three facts about the code are worth stating plainly:
- The schema declares 17 fields.
- A zero parking area gives `ParkingRatio = 0` when the total area is a non-zero number
  (`Features.ZeroParkingArea`).
- In any table `build_features` accepts, the ratio is NaN when the total area is NaN or 0
  (`Features.DerivedRatio`). A non-number total area raises only in a row whose numerator
  is present, when that derivation applies (`Features.QuotientCell`).

## Model

| member | source | states |
|---|---|---|
| `Schema.WireName` | seattle_api/schemas.py:7-11 | a field's wire name differs from its internal name exactly for `PropertyGFABuilding_s` |
| `Schema.AliasBijection` | seattle_api/schemas.py:7-11 | wire name to internal name and back are inverse translations (a bijection), and every field but `PropertyGFABuilding_s` has its wire name equal to its internal name |
| `Schema.FieldOfWire` | seattle_api/schemas.py:5-26 | a wire name resolves to the field that carries it, or to none when no field does |
| `Schema.ValidIffBounds` | seattle_api/schemas.py:6-26 | the record-level validity predicate holds exactly when every field satisfies its declared `gt`/`ge`/`le` bound |
| `Schema.ValidSatisfies` | seattle_api/schemas.py:6-26 | a valid record satisfies each field's declared bound: both areas > 0; parking, ratios, density, age, district and cluster ≥ 0; counts ≥ 1; `HasParking` in 0..1 |
| `Schema.NonNegativeIntsRedundant` | seattle_api/schemas.py:28-40 | the `non_negative_ints` validator never rejects an integer that already passed its field's declared bound |
| `Schema.ValidateField` | seattle_api/schemas.py:6-40 | a field validates exactly when it is present, of its declared type and within its bound; a failure names the field, is `Missing` exactly when the key is absent, and is never the extra validator's |
| `Schema.Parse` | seattle_api/schemas.py:5-26 | a payload validates exactly when every field does; the record is then valid and holds the payload's values; otherwise the error list is non-empty and names exactly the failing fields |
| `Schema.ParseReorder` | seattle_api/schemas.py:5-26 | two payloads with the same members in different key orders validate to the same outcome |
| `Schema.ZeroBuildingsRejected` | seattle_api/schemas.py:13 | a payload with `NumberofBuildings = 0` is rejected and that field is reported |
| `Schema.MissingFloorsRejected` | seattle_api/schemas.py:14 | a payload without `NumberofFloors` is rejected and that field is reported |
| `Schema.InternalNameNotAccepted` | seattle_api/schemas.py:7-11 | a payload without the key `"PropertyGFABuilding(s)"` is rejected for that field, even if it carries `PropertyGFABuilding_s` |
| `Schema.UnconstrainedFields` | seattle_api/schemas.py:16-21 | latitude, longitude and the three string fields are unbounded; any values in them keep a valid record valid |
| `Schema.ParkingFlagUnchecked` | seattle_api/schemas.py:12-22 | a valid record with zero parking area stays valid with `HasParking = 1`: the two are not cross-checked |
| `Schema.ParseInput` | seattle_api/schemas.py:43-44 | a body validates exactly when its `payload` member is an object that validates; the resulting record is the one `Parse` gives for that object, and is valid; a body without `payload` is reported as such |
| `Schema.Dump` | seattle_api/service.py:35 | the dump by alias has one entry per field, in declaration order, keyed by wire name, without repeated keys, each holding that field's value |
| `Schema.DumpUsesAlias` | seattle_api/service.py:35 | the dump holds `"PropertyGFABuilding(s)"` with the record's value and has no key `PropertyGFABuilding_s` |
| `Schema.DumpParse` | seattle_api/schemas.py:5-26 | validating the dump of a valid record gives back the same record (round trip) |
| `Features.DerivationsIndependent` | seattle_api/save_model.py:28-48 | no derivation reads a column another derivation writes, and the five derived columns are distinct |
| `Features.AgeCell` | seattle_api/save_model.py:28-29 | the derived age is `2016 - YearBuilt`, NaN when the year is NaN, and raises on a non-number |
| `Features.ParkingFlagCell` | seattle_api/save_model.py:32-33 | the derived flag is 1 exactly when the parking area is a positive number and 0 otherwise, so it is 0 for a zero or NaN area and never NaN |
| `Features.QuotientCell` | seattle_api/save_model.py:36-48 | a derived ratio is numerator / denominator, and NaN exactly when either cell is NaN or the denominator is 0; a non-number raises only in a row where both cells are present and the denominator is not 0, because pandas retries a failed object-column division on the rows where both operands are non-NaN |
| `Features.DeriveCells` | seattle_api/save_model.py:29-48 | the column-wide operation succeeds exactly when every row's cell does, and then yields each row's derived cell |
| `Features.Step` | seattle_api/save_model.py:28-48 | a derivation that does not apply leaves the table unchanged; one that applies appends its column and sets each row's cell to the derived cell; no existing cell changes |
| `Features.BuildFeatures` | seattle_api/save_model.py:21-51 | on a well-formed table, `build_features` keeps every row and every cell, and adds only the five derived columns and their cells |
| `Features.Chain` | seattle_api/save_model.py:21-51 | applying derivations in sequence keeps every existing cell and adds only derived cells and columns |
| `Features.ChainDerives` | seattle_api/save_model.py:21-51 | after a chain of distinct derivations, a derived column exists exactly when it existed or all its sources did; each row holds the derived cell when the derivation applied and its old cell otherwise |
| `Features.ChainSucceeds` | seattle_api/save_model.py:21-51 | a chain raises exactly when a derivation that applies cannot compute some row's cell: a non-number year or parking area, or a non-number in a ratio whose two cells are present and whose denominator is not 0 |
| `Features.BuildFeaturesPreserves` | seattle_api/save_model.py:25-48 | `build_features` never overwrites: same rows, every old cell unchanged, old columns kept, new cells only in derived columns |
| `Features.ChainNoneApply` | seattle_api/save_model.py:21-51 | when no derivation applies (every derived column is already present or lacks a source), `build_features` returns the table unchanged |
| `Features.ChainColumns` | seattle_api/save_model.py:21-51 | after a chain of distinct derivations, each of their columns is present exactly when it was present or all its sources were, for any table, including one with no rows |
| `Features.BuildFeaturesColumns` | seattle_api/save_model.py:28-48 | each derived column is present afterwards exactly when it was already present or all of its source columns were, for any table, including one with no rows |
| `Features.BuildFeaturesSucceeds` | seattle_api/save_model.py:28-48 | `build_features` raises exactly when an applicable derivation cannot compute some row's cell, as in `Features.ChainSucceeds` |
| `Features.BuildFeaturesCell` | seattle_api/save_model.py:28-48 | per row, a derived column holds the derived cell when its derivation applied, and is otherwise as before |
| `Features.DerivedBuildingAge` | seattle_api/save_model.py:28-29 | when derived, `BuildingAge` is present exactly where `YearBuilt` is, and equals `2016 - YearBuilt` |
| `Features.DerivedHasParking` | seattle_api/save_model.py:32-33 | when derived, `HasParking` is present in every row, is 0 or 1, and is 1 exactly when the parking area is positive |
| `Features.DerivedRatio` | seattle_api/save_model.py:36-48 | when derived, `ParkingRatio`, `AreaPerFloor` and `BuildingDensity` are present exactly where both sources are and the denominator is non-zero, and equal their quotient |
| `Features.ZeroParkingArea` | seattle_api/save_model.py:32-38 | zero parking area gives a derived `HasParking` of 0, and a derived `ParkingRatio` of 0 when the total area is a non-zero number |
| `Training.ColumnSplit` | seattle_api/save_model.py:60-113 | the numeric (12) and categorical (5) lists are disjoint, repeat nothing, and together name exactly the 17 final features |
| `Training.MissingColumns` | seattle_api/save_model.py:81-83 | lists exactly the requested columns the table lacks |
| `Training.KeepComplete` | seattle_api/save_model.py:81 | a row survives exactly when it has a cell in every subset column; each complete row is kept as many times as it occurs and an incomplete one not at all; none is added |
| `Training.KeepCompleteAppend` | seattle_api/save_model.py:81 | the filter distributes over concatenation, so with `KeepComplete`'s single-row case every complete row is kept in its original order |
| `Training.DropIncomplete` | seattle_api/save_model.py:81 | `dropna(subset=...)` keeps the columns and exactly the complete rows, each as often as before and in order (the rows are `KeepComplete`'s); it raises a KeyError listing the absent columns exactly when some subset column is absent |
| `Training.Restrict` | seattle_api/save_model.py:83 | a restricted row holds exactly the cells of the chosen columns, unchanged |
| `Training.SelectColumns` | seattle_api/save_model.py:83 | `df[cols]` has exactly `cols` as columns and each row restricted to them; it raises exactly when a column is absent |
| `Training.SplitRaisesIff` | seattle_api/save_model.py:87-89 | `train_test_split(test_size=0.20)` holds out `ceil(0.2 n)` rows and raises exactly when fewer than two rows are left; otherwise both parts are non-empty |
| `Training.PrepareTraining` | seattle_api/save_model.py:57-89 | derivation, `dropna`, `X = df[features_finales]`, `y = df[TARGET]` and the split's guard, stopping before the split's row choice, `fit` and `save_model`; a success has the final features as names and columns and at least two rows, with one target per row; a split failure has at most one row |
| `Training.TrainingShape` | seattle_api/save_model.py:81-146 | a successful preparation stores exactly the final feature list in order; training row `i` is the `i`-th complete row of the derived table restricted to the 17 final features, so it has all of them and nothing else; target `i` is that row's target cell |
| `Training.CompleteTablePrepares` | seattle_api/save_model.py:57-89 | a table whose columns are the target and the final features and whose rows are all complete prepares exactly when it has at least two rows; with none or one, the split raises |
| `Training.KeepAllComplete` | seattle_api/save_model.py:81 | when every row is complete, `dropna` keeps all of them, in order |
| `Training.FinalColumnsDeriveNothing` | seattle_api/save_model.py:21-51 | a table that already has every final feature as a column is returned unchanged by `build_features` |
| `Training.PrepareTrainingSucceeds` | seattle_api/save_model.py:57-89 | preparation succeeds exactly when derivation does, the target and all final features are columns, and at least two complete rows are left for the split |
| `Training.SaveCustomObjects` | seattle_api/save_model.py:148-152 | the saved metadata carries the feature names under `"feature_names"` |
| `Serving.Load` | seattle_api/service.py:15-17 | the stored feature names are present exactly when the metadata has `"feature_names"`, and are then that list |
| `Serving.Project` | seattle_api/service.py:39-40 | projection yields exactly the named columns, in the given order, each value looked up by name; it raises a KeyError listing exactly the missing names when some are missing |
| `Serving.ProjectOwnKeys` | seattle_api/service.py:40 | projecting a dict without repeated keys onto its own keys returns it unchanged |
| `Serving.Clamp` | seattle_api/service.py:44-45 | the prediction is never negative, equals the raw value when that is ≥ 0, and is 0 otherwise |
| `Serving.ModelRow` | seattle_api/service.py:36-40 | without stored names the regressor sees the dump itself; with them, the row exists exactly when every stored name is a key of the dump, has exactly the stored names as keys in the stored order, each holding the dump's value, and otherwise the KeyError names exactly the missing ones |
| `Serving.Predict` | seattle_api/service.py:20-52 | a prediction is the clamp of the regressor's output on the row `ModelRow` builds from the dump, hence ≥ 0; `input_used` is the record's dump by alias; without stored names the result is the clamped prediction on the dump; it fails exactly when a stored name is not a key of the dump, with `ModelRow`'s KeyError |
| `Serving.ResponseBody` | seattle_api/service.py:49-52 | the response object has the two keys `prediction_SiteEnergyUse_kBtu` and `input_used`, in that order, holding the prediction and the echoed dump |
| `Serving.Handle` | seattle_api/service.py:19-52 | for the `Input` object bound to `input_data`: an invalid one is a client error carrying the validation error; a prediction failure is a server error carrying the missing columns; a request succeeds exactly when validation and prediction do, with `Predict`'s response, whose prediction is ≥ 0 and which echoes the dump of the validated record |
| `Serving.WireNamesAreFinalFeatures` | seattle_api/save_model.py:60-78 | the schema's wire names, in declaration order, are exactly the final training features, in order |
| `Serving.DumpKeysAreFinalFeatures` | seattle_api/service.py:35 | every record's dump has as keys exactly the stored feature list, in order |
| `Serving.StoredNamesPredict` | seattle_api/service.py:35-45 | with the final feature list stored, prediction never fails for any record and equals the clamped prediction on the dump |
| `Serving.TrainedServicePredicts` | seattle_api/service.py:15-50 | for any successful training run whose metadata the service loads, every record gets the clamped prediction on its own dump, with the dump echoed |
| `Serving.HandleReorder` | seattle_api/service.py:35-43 | two payloads with the same members in different key orders get the same response |
| `Serving.StoredNamesHandle` | seattle_api/service.py:32-50 | with the stored names, a request succeeds exactly when its body validates; every failure is a client error |
| `Serving.ExampleRequest` | seattle_api/client_example.py:10-26 | the example building is valid; its payload validates back to it; the response is the clamped prediction on that payload with the payload echoed, including `"PropertyGFABuilding(s)" = 88434.0` |

## Left out

- BentoML model storage, tags, `custom_objects` retrieval mechanics and the service
  runtime. They are persistence and hosting. The saved and loaded metadata is modelled
  as a map (`Training.SaveCustomObjects`, `Serving.Load`).
- The scikit-learn pipeline: imputers, scaler, one-hot encoder, gradient boosting, `fit`
  and `predict`. The fitted pipeline is an arbitrary function given to the service, so
  every result holds whatever it computes.
- `train_test_split`: which rows go to training is not modelled, and the training set
  holds every kept row. The split's error is modelled: it raises when fewer than two
  rows are left (`Training.SplitRaisesIff`). The stored feature names are the columns of
  the training part, which are the columns of `X`. The hold-out count is `ceil(n / 5)`
  in integers; the float product `0.2 * n` is not modelled, and it cannot change whether
  the split raises.
- `Training.PrepareTraining`: `fit` is not modelled, so any failure inside the pipeline's
  fit on the kept rows is not modelled either. `Serving.TrainedServicePredicts` covers
  every run that gets past the split.
- The random seed, CSV reading, and the debug `print` calls. They are I/O with no
  bearing on the data shapes.
- Floating-point behaviour. NaN and infinity inside `max` and division, and float
  rounding, are out of scope because numbers are `real`. Pydantic's handling of NaN or
  infinite float inputs is left out for the same reason.
- Pydantic's lax coercions: numeric strings, floats with a zero fraction in int fields,
  and booleans as numbers. The model accepts ints and floats for float fields, only
  ints for int fields, and only strings for string fields. Error message texts are not
  modelled, only which fields fail.
- pandas dtype promotion. An integer column containing NaN becomes float in pandas. The
  derived age keeps the integer or float kind of its year cell.
- JSON `null`, booleans and arrays. `Value` has numbers, strings and objects only, so
  a payload field set to `null` (a missing value sent explicitly) or a boolean cell in
  the training table cannot be written. pandas would treat a boolean year as a number
  (`2016 - True` is 2015).
- `Serving.ExampleRequest`: it takes the example client's payload to be the dump of the
  example building (same 17 keys in the same order, same values). It is not proved equal
  to a literal copy of the client's JSON text.
- `Schema.ParseReorder`, `Serving.HandleReorder`: they assume payloads without repeated
  keys. With a repeated key, decoding keeps the later binding, and reordering can change
  which binding that is.
- The HTTP client in `seattle_api/client_example.py`. It is network I/O. Its payload
  values give the example building.
- `Serving.Handle`: the HTTP body is `{"input_data": {"payload": ...}}`. BentoML binds
  the value under `input_data` to the `Input` argument. `Handle` and `Serving.Envelope`
  start from that inner `Input` object, and the outer argument envelope is not modelled.

=== FILE: features.dfy ===
/**
  Training-time feature derivation (`build_features`): five derived columns, each
  added only when it is absent from the table and all of its source columns are
  present. A NaN cell is modelled as a key absent from its row.
 */
module Features {
  import opened Wrappers
  import opened Values

  /** One row of a table: column name to cell; a column absent from the map is a NaN cell. */
  type Row = map<string, Value>

  /** A table: its ordered column names and its rows. */
  datatype Frame = Frame(columns: seq<string>, rows: seq<Row>)

  /** Every cell of every row belongs to a column of the table. */
  predicate WellFormed(f: Frame) {
    forall i, k :: 0 <= i < |f.rows| && k in f.rows[i] ==> k in f.columns
  }

  /** The cell of a row, `None` for NaN. */
  function At(row: Row, k: string): Option<Value> {
    if k in row then Some(row[k]) else None
  }

  /** A derivation raises, naming its column, in a row whose cell it cannot compute (`Cell` fails). */
  datatype FeatureError = TypeError(column: string)

  /** The year the building ages are counted from. */
  const ReferenceYear: int := 2016

  datatype Derived = BuildingAgeCol | HasParkingCol | ParkingRatioCol | AreaPerFloorCol | BuildingDensityCol

  /** The derivations in the order they are applied. */
  const DerivationOrder: seq<Derived> :=
    [BuildingAgeCol, HasParkingCol, ParkingRatioCol, AreaPerFloorCol, BuildingDensityCol]

  /** The column a derivation adds. */
  function Target(d: Derived): string {
    match d
    case BuildingAgeCol => "BuildingAge"
    case HasParkingCol => "HasParking"
    case ParkingRatioCol => "ParkingRatio"
    case AreaPerFloorCol => "AreaPerFloor"
    case BuildingDensityCol => "BuildingDensity"
  }

  /** The columns a derivation reads. */
  function Sources(d: Derived): seq<string> {
    match d
    case BuildingAgeCol => ["YearBuilt"]
    case HasParkingCol => ["PropertyGFAParking"]
    case ParkingRatioCol => ["PropertyGFAParking", "PropertyGFATotal"]
    case AreaPerFloorCol => ["PropertyGFABuilding(s)", "NumberofFloors"]
    case BuildingDensityCol => ["NumberofBuildings", "PropertyGFATotal"]
  }

  /** No derivation reads a column another derivation adds, and targets are distinct. */
  lemma DerivationsIndependent(d: Derived, e: Derived)
    ensures Target(e) !in Sources(d)
    ensures Target(d) == Target(e) ==> d == e
  {
  }

  /** A derivation is performed when its column is absent and all of its sources are present. */
  predicate Applies(d: Derived, columns: seq<string>) {
    Target(d) !in columns && SourcesIn(d, columns)
  }

  predicate SourcesIn(d: Derived, columns: seq<string>) {
    forall s :: s in Sources(d) ==> s in columns
  }

  /** `2016 - YearBuilt`; NaN stays NaN. */
  function AgeCell(year: Option<Value>): (r: Result<Option<Value>, FeatureError>)
    ensures r.Failure? <==> year.Some? && !IsNumber(year.value)
    ensures r.Success? ==> (r.value.Some? <==> year.Some?)
    ensures r.Success? && r.value.Some? ==>
      && IsNumber(r.value.value)
      && Num(r.value.value) == ReferenceYear as real - Num(year.value)
      && (r.value.value.IntV? <==> year.value.IntV?)
  {
    match year
    case None => Success(None)
    case Some(IntV(y)) => Success(Some(IntV(ReferenceYear - y)))
    case Some(RealV(y)) => Success(Some(RealV(ReferenceYear as real - y)))
    case Some(_) => Failure(TypeError(Target(BuildingAgeCol)))
  }

  /**
    `(PropertyGFAParking > 0).astype(int)`: 1 exactly when the parking area is a
    positive number, so a zero or NaN parking area gives 0, never NaN.
   */
  function ParkingFlagCell(parking: Option<Value>): (r: Result<Option<Value>, FeatureError>)
    ensures r.Failure? <==> parking.Some? && !IsNumber(parking.value)
    ensures r.Success? ==> r.value == Some(IntV(0)) || r.value == Some(IntV(1))
    ensures r.Success? ==> (r.value == Some(IntV(1)) <==> parking.Some? && Num(parking.value) > 0.0)
  {
    match parking
    case None => Success(Some(IntV(0)))
    case Some(v) =>
      if !IsNumber(v) then Failure(TypeError(Target(HasParkingCol)))
      else if Num(v) > 0.0 then Success(Some(IntV(1)))
      else Success(Some(IntV(0)))
  }

  /** A numeric cell equal to 0, which `replace(0, nan)` turns into NaN. */
  predicate IsZero(v: Value) {
    IsNumber(v) && Num(v) == 0.0
  }

  /**
    `numerator / denominator.replace(0, nan)`: a float, or NaN when either cell is NaN
    or the denominator is zero. A column holding a non-number makes the vectorised
    division raise, after which pandas retries it on the rows where both operands are
    non-NaN only; so a row raises exactly when both cells are there, the denominator
    is not zero, and one of the two is not a number.
   */
  function QuotientCell(d: Derived, num: Option<Value>, den: Option<Value>): (r: Result<Option<Value>, FeatureError>)
    ensures r.Failure? <==>
      num.Some? && den.Some? && !IsZero(den.value) && (!IsNumber(num.value) || !IsNumber(den.value))
    ensures r.Success? ==> (r.value.Some? <==> num.Some? && den.Some? && !IsZero(den.value))
    ensures r.Success? && r.value.Some? ==>
      IsNumber(num.value) && IsNumber(den.value) && r.value.value == RealV(Num(num.value) / Num(den.value))
  {
    if num.None? || den.None? || IsZero(den.value) then Success(None)
    else if !IsNumber(num.value) || !IsNumber(den.value) then Failure(TypeError(Target(d)))
    else Success(Some(RealV(Num(num.value) / Num(den.value))))
  }

  /** The derived cell of one row. */
  function Cell(d: Derived, row: Row): Result<Option<Value>, FeatureError> {
    match d
    case BuildingAgeCol => AgeCell(At(row, "YearBuilt"))
    case HasParkingCol => ParkingFlagCell(At(row, "PropertyGFAParking"))
    case ParkingRatioCol => QuotientCell(d, At(row, "PropertyGFAParking"), At(row, "PropertyGFATotal"))
    case AreaPerFloorCol => QuotientCell(d, At(row, "PropertyGFABuilding(s)"), At(row, "NumberofFloors"))
    case BuildingDensityCol => QuotientCell(d, At(row, "NumberofBuildings"), At(row, "PropertyGFATotal"))
  }

  /** A derived cell depends on the row's source cells only. */
  lemma CellReadsSources(d: Derived, r1: Row, r2: Row)
    requires forall s :: s in Sources(d) ==> At(r1, s) == At(r2, s)
    ensures Cell(d, r1) == Cell(d, r2)
  {
    match d
    case BuildingAgeCol => assert At(r1, "YearBuilt") == At(r2, "YearBuilt");
    case HasParkingCol => assert At(r1, "PropertyGFAParking") == At(r2, "PropertyGFAParking");
    case ParkingRatioCol =>
      assert At(r1, "PropertyGFAParking") == At(r2, "PropertyGFAParking");
      assert At(r1, "PropertyGFATotal") == At(r2, "PropertyGFATotal");
    case AreaPerFloorCol =>
      assert At(r1, "PropertyGFABuilding(s)") == At(r2, "PropertyGFABuilding(s)");
      assert At(r1, "NumberofFloors") == At(r2, "NumberofFloors");
    case BuildingDensityCol =>
      assert At(r1, "NumberofBuildings") == At(r2, "NumberofBuildings");
      assert At(r1, "PropertyGFATotal") == At(r2, "PropertyGFATotal");
  }

  /** The derived column for every row; it raises when some row's `Cell` fails. */
  function DeriveCells(d: Derived, rows: seq<Row>): (r: Result<seq<Option<Value>>, FeatureError>)
    ensures r.Success? <==> forall i :: 0 <= i < |rows| ==> Cell(d, rows[i]).Success?
    ensures r.Success? ==> |r.value| == |rows|
    ensures r.Success? ==> forall i :: 0 <= i < |rows| ==> r.value[i] == Cell(d, rows[i]).value
    ensures r.Failure? ==> r.error == TypeError(Target(d))
  {
    if |rows| == 0 then Success([])
    else
      match Cell(d, rows[0])
      case Failure(e) =>
        assert e == TypeError(Target(d));
        Failure(e)
      case Success(c) =>
        match DeriveCells(d, rows[1..])
        case Failure(e) =>
          assert exists i :: 1 <= i < |rows| && Cell(d, rows[i]).Failure? by {
            var j :| 0 <= j < |rows[1..]| && Cell(d, rows[1..][j]).Failure?;
            assert rows[1..][j] == rows[j + 1];
          }
          Failure(e)
        case Success(cs) =>
          assert forall i :: 1 <= i < |rows| ==> rows[i] == rows[1..][i - 1];
          Success([c] + cs)
  }

  /** Sets a column on each row whose derived cell is a value; NaN cells stay absent. */
  function Attach(rows: seq<Row>, name: string, cells: seq<Option<Value>>): seq<Row>
    requires |cells| == |rows|
  {
    seq(|rows|, i requires 0 <= i < |rows| =>
      if cells[i].Some? then rows[i][name := cells[i].value] else rows[i])
  }

  /** `g` keeps every row of `f`, and every cell of every row, unchanged. */
  predicate Extends(f: Frame, g: Frame) {
    && |g.rows| == |f.rows|
    && (forall c :: c in f.columns ==> c in g.columns)
    && (forall i, k :: 0 <= i < |f.rows| && k in f.rows[i] ==> k in g.rows[i] && g.rows[i][k] == f.rows[i][k])
  }

  /** The cells and columns `g` has beyond `f` are all named in `ks`. */
  predicate AddsOnly(f: Frame, g: Frame, ks: set<string>) {
    && |g.rows| == |f.rows|
    && (forall c :: c in g.columns ==> c in f.columns || c in ks)
    && (forall i, k :: 0 <= i < |g.rows| && k in g.rows[i] ==> k in f.rows[i] || k in ks)
  }

  /** One derivation step over the whole table. */
  function Step(d: Derived, f: Frame): (r: Result<Frame, FeatureError>)
    ensures !Applies(d, f.columns) ==> r == Success(f)
    ensures Applies(d, f.columns) ==>
      (r.Success? <==> forall i :: 0 <= i < |f.rows| ==> Cell(d, f.rows[i]).Success?)
    ensures WellFormed(f) && r.Success? && Applies(d, f.columns) ==>
      && r.value.columns == f.columns + [Target(d)]
      && |r.value.rows| == |f.rows|
      && forall i :: 0 <= i < |f.rows| ==> At(r.value.rows[i], Target(d)) == Cell(d, f.rows[i]).value
    ensures WellFormed(f) && r.Success? ==>
      WellFormed(r.value) && Extends(f, r.value) && AddsOnly(f, r.value, {Target(d)})
  {
    if !Applies(d, f.columns) then Success(f)
    else
      match DeriveCells(d, f.rows)
      case Failure(e) => Failure(e)
      case Success(cells) =>
        var g := Frame(f.columns + [Target(d)], Attach(f.rows, Target(d), cells));
        assert WellFormed(f) ==> forall i :: 0 <= i < |f.rows| ==> At(g.rows[i], Target(d)) == cells[i] by {
          if WellFormed(f) {
            forall i | 0 <= i < |f.rows| ensures At(g.rows[i], Target(d)) == cells[i] {
              assert Target(d) !in f.rows[i];
            }
          }
        }
        Success(g)
  }

  /** The column names a sequence of derivations may add. */
  function Targets(ds: seq<Derived>): set<string> {
    set d | d in ds :: Target(d)
  }

  /** The derivations applied in order; the first that raises stops the chain. */
  function Chain(ds: seq<Derived>, f: Frame): (r: Result<Frame, FeatureError>)
    ensures WellFormed(f) && r.Success? ==>
      WellFormed(r.value) && Extends(f, r.value) && AddsOnly(f, r.value, Targets(ds))
  {
    if |ds| == 0 then Success(f)
    else
      match Step(ds[0], f)
      case Failure(e) => Failure(e)
      case Success(h) =>
        var r := Chain(ds[1..], h);
        assert Targets(ds) == {Target(ds[0])} + Targets(ds[1..]) by {
          assert ds == [ds[0]] + ds[1..];
        }
        r
  }

  /**
    `build_features`: the five derivations, in source order. On a well-formed table it
    keeps every row and cell, and adds only the derived columns and their cells.
   */
  function BuildFeatures(f: Frame): (r: Result<Frame, FeatureError>)
    ensures WellFormed(f) && r.Success? ==>
      WellFormed(r.value) && Extends(f, r.value) && AddsOnly(f, r.value, Targets(DerivationOrder))
  {
    Chain(DerivationOrder, f)
  }

  /** A chain none of whose derivations applies leaves the table as it is. */
  lemma {:induction false} ChainNoneApply(ds: seq<Derived>, f: Frame)
    requires forall d :: d in ds ==> !Applies(d, f.columns)
    ensures Chain(ds, f) == Success(f)
    decreases |ds|
  {
    if |ds| > 0 {
      assert ds[0] in ds;
      assert forall d :: d in ds[1..] ==> d in ds;
      ChainNoneApply(ds[1..], f);
    }
  }

  predicate DistinctDerivations(ds: seq<Derived>) {
    forall i, j :: 0 <= i < j < |ds| ==> ds[i] != ds[j]
  }

  /** A step leaves every other derivation's applicability, inputs and column as they were. */
  lemma StepKeepsOthers(e: Derived, f: Frame, h: Frame, d: Derived, i: int)
    requires WellFormed(f) && Step(e, f) == Success(h)
    requires d != e && 0 <= i < |f.rows|
    ensures Target(d) in h.columns <==> Target(d) in f.columns
    ensures SourcesIn(d, h.columns) <==> SourcesIn(d, f.columns)
    ensures Cell(d, h.rows[i]) == Cell(d, f.rows[i])
    ensures At(h.rows[i], Target(d)) == At(f.rows[i], Target(d))
  {
    DerivationsIndependent(d, e);
    forall s | s in Sources(d) ensures At(h.rows[i], s) == At(f.rows[i], s) {
      assert s != Target(e);
    }
    CellReadsSources(d, h.rows[i], f.rows[i]);
    assert Target(d) != Target(e);
  }

  /** A step leaves every other derivation's column and applicability as they were. */
  lemma StepKeepsColumns(e: Derived, f: Frame, h: Frame, d: Derived)
    requires WellFormed(f) && Step(e, f) == Success(h) && d != e
    ensures Target(d) in h.columns <==> Target(d) in f.columns
    ensures SourcesIn(d, h.columns) <==> SourcesIn(d, f.columns)
  {
    DerivationsIndependent(d, e);
    assert Target(d) != Target(e);
  }

  /** Columns outside the chain's targets are present afterwards exactly when they were before. */
  lemma {:induction false} ChainLeavesColumns(ds: seq<Derived>, f: Frame, g: Frame, k: string)
    requires WellFormed(f) && Chain(ds, f) == Success(g) && k !in Targets(ds)
    ensures k in g.columns <==> k in f.columns
    decreases |ds|
  {
    if |ds| > 0 {
      var h := Step(ds[0], f).value;
      assert Targets(ds) == {Target(ds[0])} + Targets(ds[1..]) by {
        assert ds == [ds[0]] + ds[1..];
      }
      ChainLeavesColumns(ds[1..], h, g, k);
    }
  }

  /**
    After a chain of distinct derivations, the column of each of them is present
    exactly when it was present or all its sources were; this holds for a table
    with no rows as well.
   */
  lemma {:induction false} ChainColumns(ds: seq<Derived>, f: Frame, g: Frame, d: Derived)
    requires WellFormed(f) && Chain(ds, f) == Success(g)
    requires d in ds && DistinctDerivations(ds)
    ensures Target(d) in g.columns <==> Target(d) in f.columns || SourcesIn(d, f.columns)
    decreases |ds|
  {
    var h := Step(ds[0], f).value;
    var rest := ds[1..];
    assert Chain(rest, h) == Success(g);
    if ds[0] == d {
      assert Target(d) !in Targets(rest) by {
        forall e | e in rest ensures Target(e) != Target(d) {
          var j :| 0 <= j < |rest| && rest[j] == e;
          assert rest[j] == ds[j + 1];
          DerivationsIndependent(d, e);
        }
      }
      ChainLeavesColumns(rest, h, g, Target(d));
    } else {
      StepKeepsColumns(ds[0], f, h, d);
      assert d in rest;
      assert DistinctDerivations(rest) by {
        forall a, b | 0 <= a < b < |rest| ensures rest[a] != rest[b] {
          assert rest[a] == ds[a + 1] && rest[b] == ds[b + 1];
        }
      }
      ChainColumns(rest, h, g, d);
    }
  }

  /** Cells outside the chain's targets are left as they were. */
  lemma ChainLeaves(ds: seq<Derived>, f: Frame, g: Frame, k: string, i: int)
    requires WellFormed(f) && Chain(ds, f) == Success(g)
    requires k !in Targets(ds) && 0 <= i < |f.rows|
    ensures k in g.columns <==> k in f.columns
    ensures At(g.rows[i], k) == At(f.rows[i], k)
  {
  }

  /**
    The effect of a chain of distinct derivations on one derivation `d` of it: its
    column ends up present exactly when it was present or all its sources were, and
    each row's cell is the derived cell when the derivation applied and otherwise the
    cell the row already had.
   */
  lemma {:induction false} ChainDerives(ds: seq<Derived>, f: Frame, g: Frame, d: Derived, i: int)
    requires WellFormed(f) && Chain(ds, f) == Success(g)
    requires d in ds && DistinctDerivations(ds)
    requires 0 <= i < |f.rows|
    ensures Target(d) in g.columns <==> Target(d) in f.columns || SourcesIn(d, f.columns)
    ensures Applies(d, f.columns) ==>
      Cell(d, f.rows[i]).Success? && At(g.rows[i], Target(d)) == Cell(d, f.rows[i]).value
    ensures !Applies(d, f.columns) ==> At(g.rows[i], Target(d)) == At(f.rows[i], Target(d))
    decreases |ds|
  {
    var h := Step(ds[0], f).value;
    var rest := ds[1..];
    assert Chain(rest, h) == Success(g);
    if ds[0] == d {
      assert d !in rest by {
        forall j | 0 <= j < |rest| ensures rest[j] != d {
          assert rest[j] == ds[j + 1];
        }
      }
      assert Target(d) !in Targets(rest) by {
        forall e | e in rest ensures Target(e) != Target(d) {
          DerivationsIndependent(d, e);
        }
      }
      ChainLeaves(rest, h, g, Target(d), i);
    } else {
      StepKeepsOthers(ds[0], f, h, d, i);
      assert d in rest;
      assert DistinctDerivations(rest) by {
        forall a, b | 0 <= a < b < |rest| ensures rest[a] != rest[b] {
          assert rest[a] == ds[a + 1] && rest[b] == ds[b + 1];
        }
      }
      ChainDerives(rest, h, g, d, i);
    }
  }

  /** Every derivation of `ds` that applies to `f` can compute the cell of every row. */
  predicate CellsOk(ds: seq<Derived>, f: Frame) {
    forall d, i :: d in ds && Applies(d, f.columns) && 0 <= i < |f.rows| ==> Cell(d, f.rows[i]).Success?
  }

  /**
    A chain of distinct derivations succeeds exactly when every derivation that applies
    can compute the cell of every row.
   */
  lemma {:induction false} ChainSucceeds(ds: seq<Derived>, f: Frame)
    requires WellFormed(f) && DistinctDerivations(ds)
    ensures Chain(ds, f).Success? <==> CellsOk(ds, f)
    decreases |ds|
  {
    if |ds| > 0 {
      var rest := ds[1..];
      assert DistinctDerivations(rest) by {
        forall a, b | 0 <= a < b < |rest| ensures rest[a] != rest[b] {
          assert rest[a] == ds[a + 1] && rest[b] == ds[b + 1];
        }
      }
      CellsOkSplit(ds, f);
      var first := Step(ds[0], f);
      if first.Success? {
        var h := first.value;
        assert Chain(ds, f) == Chain(rest, h);
        ChainSucceeds(rest, h);
        CellsOkAfterStep(ds, f, h);
      }
    }
  }

  lemma CellsOkSplit(ds: seq<Derived>, f: Frame)
    requires |ds| > 0
    ensures CellsOk(ds, f) <==>
      (Applies(ds[0], f.columns) ==> forall i :: 0 <= i < |f.rows| ==> Cell(ds[0], f.rows[i]).Success?)
      && CellsOk(ds[1..], f)
  {
    assert forall d :: d in ds <==> d == ds[0] || d in ds[1..] by {
      assert ds == [ds[0]] + ds[1..];
    }
  }

  lemma CellsOkAfterStep(ds: seq<Derived>, f: Frame, h: Frame)
    requires |ds| > 0 && DistinctDerivations(ds)
    requires WellFormed(f) && Step(ds[0], f) == Success(h)
    ensures CellsOk(ds[1..], h) <==> CellsOk(ds[1..], f)
  {
    var rest := ds[1..];
    assert forall d :: d in rest ==> d != ds[0] by {
      forall d | d in rest ensures d != ds[0] {
        var j :| 0 <= j < |rest| && rest[j] == d;
        assert rest[j] == ds[j + 1];
      }
    }
    forall d | d in rest ensures Applies(d, h.columns) == Applies(d, f.columns) {
      StepKeepsColumns(ds[0], f, h, d);
    }
    forall d, i | d in rest && 0 <= i < |f.rows| ensures Cell(d, h.rows[i]) == Cell(d, f.rows[i]) {
      StepKeepsOthers(ds[0], f, h, d, i);
    }
  }

  lemma DerivationOrderDistinct()
    ensures DistinctDerivations(DerivationOrder)
  {
  }

  /**
    `build_features` never overwrites: every row keeps every cell it had, and the only
    cells and columns it adds are derived ones.
   */
  lemma BuildFeaturesPreserves(f: Frame, g: Frame)
    requires WellFormed(f) && BuildFeatures(f) == Success(g)
    ensures WellFormed(g) && |g.rows| == |f.rows|
    ensures forall i, k :: 0 <= i < |f.rows| && k in f.rows[i] ==> k in g.rows[i] && g.rows[i][k] == f.rows[i][k]
    ensures forall i, k :: 0 <= i < |g.rows| && k in g.rows[i] && k !in f.rows[i] ==> k in Targets(DerivationOrder)
    ensures f.columns <= g.columns
  {
    assert DerivationOrder == [DerivationOrder[0]] + DerivationOrder[1..];
    PrefixChain(DerivationOrder, f, g);
  }

  /** The chain only appends columns. */
  lemma {:induction false} PrefixChain(ds: seq<Derived>, f: Frame, g: Frame)
    requires Chain(ds, f) == Success(g)
    ensures f.columns <= g.columns
    decreases |ds|
  {
    if |ds| > 0 {
      var h := Step(ds[0], f).value;
      PrefixChain(ds[1..], h, g);
    }
  }

  /** A derived column is present afterwards exactly when it was, or all of its sources were. */
  lemma BuildFeaturesColumns(f: Frame, g: Frame, d: Derived)
    requires WellFormed(f) && BuildFeatures(f) == Success(g)
    ensures Target(d) in g.columns <==> Target(d) in f.columns || SourcesIn(d, f.columns)
  {
    DerivationOrderDistinct();
    DerivationOrderComplete(d);
    ChainColumns(DerivationOrder, f, g, d);
  }

  /**
    `build_features` raises exactly when a derivation that applies cannot compute some
    row's cell (see `Cell`).
   */
  lemma BuildFeaturesSucceeds(f: Frame)
    requires WellFormed(f)
    ensures BuildFeatures(f).Success? <==>
      forall d, i :: Applies(d, f.columns) && 0 <= i < |f.rows| ==> Cell(d, f.rows[i]).Success?
  {
    DerivationOrderDistinct();
    ChainSucceeds(DerivationOrder, f);
    forall d ensures d in DerivationOrder {
      DerivationOrderComplete(d);
    }
  }

  lemma DerivationOrderComplete(d: Derived)
    ensures d in DerivationOrder
  {
  }

  /** The cell `build_features` leaves in one row for derivation `d`. */
  lemma BuildFeaturesCell(f: Frame, g: Frame, d: Derived, i: int)
    requires WellFormed(f) && BuildFeatures(f) == Success(g) && 0 <= i < |f.rows|
    ensures Applies(d, f.columns) ==>
      Cell(d, f.rows[i]).Success? && At(g.rows[i], Target(d)) == Cell(d, f.rows[i]).value
    ensures !Applies(d, f.columns) ==> At(g.rows[i], Target(d)) == At(f.rows[i], Target(d))
  {
    DerivationOrderDistinct();
    ChainDerives(DerivationOrder, f, g, d, i);
  }

  /** When derived, `BuildingAge` is `2016 - YearBuilt`, NaN where the year is NaN. */
  lemma DerivedBuildingAge(f: Frame, g: Frame, i: int)
    requires WellFormed(f) && BuildFeatures(f) == Success(g) && 0 <= i < |f.rows|
    requires Applies(BuildingAgeCol, f.columns)
    ensures "BuildingAge" in g.rows[i] <==> "YearBuilt" in f.rows[i]
    ensures "BuildingAge" in g.rows[i] ==>
      IsNumber(g.rows[i]["BuildingAge"]) && IsNumber(f.rows[i]["YearBuilt"])
      && Num(g.rows[i]["BuildingAge"]) == 2016.0 - Num(f.rows[i]["YearBuilt"])
  {
    BuildFeaturesCell(f, g, BuildingAgeCol, i);
    BuildFeaturesSucceeds(f);
    assert Cell(BuildingAgeCol, f.rows[i]).Success?;
  }

  /**
    When derived, `HasParking` is 1 if the parking area is positive and 0 otherwise,
    including a zero or NaN parking area; it is never NaN.
   */
  lemma DerivedHasParking(f: Frame, g: Frame, i: int)
    requires WellFormed(f) && BuildFeatures(f) == Success(g) && 0 <= i < |f.rows|
    requires Applies(HasParkingCol, f.columns)
    ensures "HasParking" in g.rows[i]
    ensures g.rows[i]["HasParking"] == IntV(1) || g.rows[i]["HasParking"] == IntV(0)
    ensures g.rows[i]["HasParking"] == IntV(1) <==>
      "PropertyGFAParking" in f.rows[i] && IsNumber(f.rows[i]["PropertyGFAParking"])
      && Num(f.rows[i]["PropertyGFAParking"]) > 0.0
  {
    BuildFeaturesCell(f, g, HasParkingCol, i);
    BuildFeaturesSucceeds(f);
    assert Cell(HasParkingCol, f.rows[i]).Success?;
  }

  /** When derived, a ratio cell is numerator over denominator, NaN when either is NaN or the denominator is 0. */
  lemma DerivedRatio(f: Frame, g: Frame, i: int, d: Derived)
    requires WellFormed(f) && BuildFeatures(f) == Success(g) && 0 <= i < |f.rows|
    requires d == ParkingRatioCol || d == AreaPerFloorCol || d == BuildingDensityCol
    requires Applies(d, f.columns)
    ensures Target(d) in g.rows[i] <==>
      Sources(d)[0] in f.rows[i] && Sources(d)[1] in f.rows[i]
      && IsNumber(f.rows[i][Sources(d)[1]]) && Num(f.rows[i][Sources(d)[1]]) != 0.0
    ensures Target(d) in g.rows[i] ==>
      && IsNumber(f.rows[i][Sources(d)[0]]) && IsNumber(f.rows[i][Sources(d)[1]])
      && g.rows[i][Target(d)] == RealV(Num(f.rows[i][Sources(d)[0]]) / Num(f.rows[i][Sources(d)[1]]))
  {
    BuildFeaturesCell(f, g, d, i);
    BuildFeaturesSucceeds(f);
    assert Cell(d, f.rows[i]).Success?;
  }

  /**
    A row with no parking area gets `HasParking = 0` and, where its total area is a
    non-zero number, `ParkingRatio = 0`.
   */
  lemma ZeroParkingArea(f: Frame, g: Frame, i: int)
    requires WellFormed(f) && BuildFeatures(f) == Success(g) && 0 <= i < |f.rows|
    requires "PropertyGFAParking" in f.rows[i] && IsNumber(f.rows[i]["PropertyGFAParking"])
    requires Num(f.rows[i]["PropertyGFAParking"]) == 0.0
    ensures Applies(HasParkingCol, f.columns) ==> At(g.rows[i], "HasParking") == Some(IntV(0))
    ensures Applies(ParkingRatioCol, f.columns) && "PropertyGFATotal" in f.rows[i]
      && IsNumber(f.rows[i]["PropertyGFATotal"]) && Num(f.rows[i]["PropertyGFATotal"]) != 0.0
      ==> At(g.rows[i], "ParkingRatio") == Some(RealV(0.0))
  {
    ZeroParkingCells(f.rows[i]);
    BuildFeaturesCell(f, g, HasParkingCol, i);
    BuildFeaturesCell(f, g, ParkingRatioCol, i);
  }

  /** The cell-level facts behind `ZeroParkingArea`. */
  lemma ZeroParkingCells(row: Row)
    requires "PropertyGFAParking" in row && IsNumber(row["PropertyGFAParking"])
    requires Num(row["PropertyGFAParking"]) == 0.0
    ensures Cell(HasParkingCol, row) == Success(Some(IntV(0)))
    ensures "PropertyGFATotal" in row && IsNumber(row["PropertyGFATotal"]) && Num(row["PropertyGFATotal"]) != 0.0
      ==> Cell(ParkingRatioCol, row) == Success(Some(RealV(0.0)))
  {
  }
}

=== FILE: schema.dfy ===
/**
  The request schema of the prediction endpoint (`BuildingData` and its `Input`
  envelope): seventeen typed fields with per-field range constraints, one field whose
  wire name differs from its internal name, and a redundant extra check on the
  integer fields.
 */
module Schema {
  import opened Wrappers
  import opened Values

  /** The fields of a building record, in declaration order. */
  datatype Field =
    | PropertyGFATotal
    | PropertyGFABuilding_s
    | PropertyGFAParking
    | NumberofBuildings
    | NumberofFloors
    | BuildingAge
    | PrimaryPropertyType
    | LargestPropertyUseType
    | CouncilDistrictCode
    | Neighborhood
    | Latitude
    | Longitude
    | HasParking
    | ParkingRatio
    | AreaPerFloor
    | BuildingDensity
    | GeoCluster

  const DeclarationOrder: seq<Field> := [
    PropertyGFATotal, PropertyGFABuilding_s, PropertyGFAParking, NumberofBuildings,
    NumberofFloors, BuildingAge, PrimaryPropertyType, LargestPropertyUseType,
    CouncilDistrictCode, Neighborhood, Latitude, Longitude, HasParking, ParkingRatio,
    AreaPerFloor, BuildingDensity, GeoCluster
  ]

  lemma DeclarationOrderComplete(f: Field)
    ensures f in DeclarationOrder
  {
  }

  lemma DeclarationOrderDistinct()
    ensures forall i, j :: 0 <= i < j < |DeclarationOrder| ==> DeclarationOrder[i] != DeclarationOrder[j]
  {
  }

  /** The attribute name of a field inside the program. */
  function InternalName(f: Field): string {
    match f
    case PropertyGFATotal => "PropertyGFATotal"
    case PropertyGFABuilding_s => "PropertyGFABuilding_s"
    case PropertyGFAParking => "PropertyGFAParking"
    case NumberofBuildings => "NumberofBuildings"
    case NumberofFloors => "NumberofFloors"
    case BuildingAge => "BuildingAge"
    case PrimaryPropertyType => "PrimaryPropertyType"
    case LargestPropertyUseType => "LargestPropertyUseType"
    case CouncilDistrictCode => "CouncilDistrictCode"
    case Neighborhood => "Neighborhood"
    case Latitude => "Latitude"
    case Longitude => "Longitude"
    case HasParking => "HasParking"
    case ParkingRatio => "ParkingRatio"
    case AreaPerFloor => "AreaPerFloor"
    case BuildingDensity => "BuildingDensity"
    case GeoCluster => "GeoCluster"
  }

  /** The key of a field in a JSON payload and in the dump by alias. */
  function WireName(f: Field): (n: string)
    ensures n != InternalName(f) <==> f == PropertyGFABuilding_s
  {
    if f == PropertyGFABuilding_s then "PropertyGFABuilding(s)" else InternalName(f)
  }

  lemma InternalNameInjective(f: Field, g: Field)
    requires InternalName(f) == InternalName(g)
    ensures f == g
  {
  }

  lemma WireNameInjective(f: Field, g: Field)
    requires WireName(f) == WireName(g)
    ensures f == g
  {
  }

  /** The field a wire name designates, if any. */
  function FieldOfWire(n: string): (r: Option<Field>)
    ensures r.Some? ==> WireName(r.value) == n
    ensures r.None? ==> forall f :: WireName(f) != n
  {
    FindWire(DeclarationOrder, n)
  }

  function FindWire(fs: seq<Field>, n: string): (r: Option<Field>)
    ensures r.Some? ==> WireName(r.value) == n
    ensures r.None? ==> forall f :: f in fs ==> WireName(f) != n
  {
    if |fs| == 0 then None
    else if WireName(fs[0]) == n then Some(fs[0])
    else FindWire(fs[1..], n)
  }

  /** The field an internal name designates, if any. */
  function FieldOfInternal(n: string): (r: Option<Field>)
    ensures r.Some? ==> InternalName(r.value) == n
    ensures r.None? ==> forall f :: InternalName(f) != n
  {
    FindInternal(DeclarationOrder, n)
  }

  function FindInternal(fs: seq<Field>, n: string): (r: Option<Field>)
    ensures r.Some? ==> InternalName(r.value) == n
    ensures r.None? ==> forall f :: f in fs ==> InternalName(f) != n
  {
    if |fs| == 0 then None
    else if InternalName(fs[0]) == n then Some(fs[0])
    else FindInternal(fs[1..], n)
  }

  /** Translates a wire name to the internal name of the same field. */
  function WireToInternal(n: string): Option<string> {
    match FieldOfWire(n)
    case Some(f) => Some(InternalName(f))
    case None => None
  }

  /** Translates an internal name to the wire name of the same field. */
  function InternalToWire(n: string): Option<string> {
    match FieldOfInternal(n)
    case Some(f) => Some(WireName(f))
    case None => None
  }

  /**
    The alias mapping is a bijection between the internal names and the wire names,
    and it is the identity on every field but `PropertyGFABuilding_s`.
   */
  lemma AliasBijection(f: Field, n: string, m: string)
    ensures WireToInternal(WireName(f)) == Some(InternalName(f))
    ensures InternalToWire(InternalName(f)) == Some(WireName(f))
    ensures WireToInternal(n) == Some(m) <==> InternalToWire(m) == Some(n)
    ensures f != PropertyGFABuilding_s ==> WireName(f) == InternalName(f)
  {
    DeclarationOrderComplete(f);
    assert FieldOfWire(WireName(f)) == Some(f) by {
      if FieldOfWire(WireName(f)).Some? {
        WireNameInjective(FieldOfWire(WireName(f)).value, f);
      }
    }
    assert FieldOfInternal(InternalName(f)) == Some(f) by {
      if FieldOfInternal(InternalName(f)).Some? {
        InternalNameInjective(FieldOfInternal(InternalName(f)).value, f);
      }
    }
    if WireToInternal(n) == Some(m) {
      var g := FieldOfWire(n).value;
      DeclarationOrderComplete(g);
      if FieldOfInternal(m).Some? {
        InternalNameInjective(FieldOfInternal(m).value, g);
      }
    }
    if InternalToWire(m) == Some(n) {
      var g := FieldOfInternal(m).value;
      DeclarationOrderComplete(g);
      if FieldOfWire(n).Some? {
        WireNameInjective(FieldOfWire(n).value, g);
      }
    }
  }

  /** The Python type a field is declared with. */
  datatype Kind = FloatKind | IntKind | StrKind

  function KindOf(f: Field): Kind {
    match f
    case PrimaryPropertyType | LargestPropertyUseType | Neighborhood => StrKind
    case NumberofBuildings | NumberofFloors | BuildingAge | CouncilDistrictCode
      | HasParking | GeoCluster => IntKind
    case _ => FloatKind
  }

  /** The range constraint a field is declared with: `gt`, `ge`, `ge` with `le`, or none. */
  datatype Bound = Unbounded | Gt(lo: real) | Ge(lo: real) | Within(lo: real, hi: real)

  function Constraint(f: Field): Bound {
    match f
    case PropertyGFATotal | PropertyGFABuilding_s => Gt(0.0)
    case NumberofBuildings | NumberofFloors => Ge(1.0)
    case HasParking => Within(0.0, 1.0)
    case PropertyGFAParking | BuildingAge | CouncilDistrictCode | ParkingRatio
      | AreaPerFloor | BuildingDensity | GeoCluster => Ge(0.0)
    case PrimaryPropertyType | LargestPropertyUseType | Neighborhood
      | Latitude | Longitude => Unbounded
  }

  predicate Satisfies(v: Value, b: Bound) {
    match b
    case Unbounded => true
    case Gt(lo) => IsNumber(v) && Num(v) > lo
    case Ge(lo) => IsNumber(v) && Num(v) >= lo
    case Within(lo, hi) => IsNumber(v) && lo <= Num(v) <= hi
  }

  /** The fields the extra `non_negative_ints` validator runs on. */
  const NonNegativeIntFields: set<Field> :=
    {NumberofBuildings, NumberofFloors, BuildingAge, CouncilDistrictCode, GeoCluster, HasParking}

  /** The extra validator raises on a negative integer. */
  predicate NonNegativeIntsRaises(f: Field, v: Value) {
    f in NonNegativeIntFields && v.IntV? && v.i < 0
  }

  /** A validated building record. */
  datatype BuildingData = BuildingData(
    PropertyGFATotal: real,
    PropertyGFABuilding_s: real,
    PropertyGFAParking: real,
    NumberofBuildings: int,
    NumberofFloors: int,
    BuildingAge: int,
    PrimaryPropertyType: string,
    LargestPropertyUseType: string,
    CouncilDistrictCode: int,
    Neighborhood: string,
    Latitude: real,
    Longitude: real,
    HasParking: int,
    ParkingRatio: real,
    AreaPerFloor: real,
    BuildingDensity: real,
    GeoCluster: int)

  /** The record's constraints, field by field, as declared. */
  predicate Valid(b: BuildingData) {
    && b.PropertyGFATotal > 0.0
    && b.PropertyGFABuilding_s > 0.0
    && b.PropertyGFAParking >= 0.0
    && b.NumberofBuildings >= 1
    && b.NumberofFloors >= 1
    && b.BuildingAge >= 0
    && b.CouncilDistrictCode >= 0
    && 0 <= b.HasParking <= 1
    && b.ParkingRatio >= 0.0
    && b.AreaPerFloor >= 0.0
    && b.BuildingDensity >= 0.0
    && b.GeoCluster >= 0
  }

  /** A value of exactly the shape a field of kind `k` holds once validated. */
  predicate HasKind(v: Value, k: Kind) {
    match k
    case FloatKind => v.RealV?
    case IntKind => v.IntV?
    case StrKind => v.StrV?
  }

  /** The value of a field of the record. */
  function Get(b: BuildingData, f: Field): (v: Value)
    ensures HasKind(v, KindOf(f))
  {
    match f
    case PropertyGFATotal => RealV(b.PropertyGFATotal)
    case PropertyGFABuilding_s => RealV(b.PropertyGFABuilding_s)
    case PropertyGFAParking => RealV(b.PropertyGFAParking)
    case NumberofBuildings => IntV(b.NumberofBuildings)
    case NumberofFloors => IntV(b.NumberofFloors)
    case BuildingAge => IntV(b.BuildingAge)
    case PrimaryPropertyType => StrV(b.PrimaryPropertyType)
    case LargestPropertyUseType => StrV(b.LargestPropertyUseType)
    case CouncilDistrictCode => IntV(b.CouncilDistrictCode)
    case Neighborhood => StrV(b.Neighborhood)
    case Latitude => RealV(b.Latitude)
    case Longitude => RealV(b.Longitude)
    case HasParking => IntV(b.HasParking)
    case ParkingRatio => RealV(b.ParkingRatio)
    case AreaPerFloor => RealV(b.AreaPerFloor)
    case BuildingDensity => RealV(b.BuildingDensity)
    case GeoCluster => IntV(b.GeoCluster)
  }

  /** Two records with the same value in every field are the same record. */
  lemma GetExtensional(a: BuildingData, b: BuildingData)
    requires forall f :: Get(a, f) == Get(b, f)
    ensures a == b
  {
    SameAreasAndCounts(a, b);
    SameLocationAndRatios(a, b);
  }

  /** The areas, counts, age and use types of `GetExtensional`. */
  lemma SameAreasAndCounts(a: BuildingData, b: BuildingData)
    requires forall f :: Get(a, f) == Get(b, f)
    ensures a.PropertyGFATotal == b.PropertyGFATotal
    ensures a.PropertyGFABuilding_s == b.PropertyGFABuilding_s
    ensures a.PropertyGFAParking == b.PropertyGFAParking
    ensures a.NumberofBuildings == b.NumberofBuildings
    ensures a.NumberofFloors == b.NumberofFloors
    ensures a.BuildingAge == b.BuildingAge
    ensures a.PrimaryPropertyType == b.PrimaryPropertyType
    ensures a.LargestPropertyUseType == b.LargestPropertyUseType
  {
    assert Get(a, PropertyGFATotal) == Get(b, PropertyGFATotal);
    assert Get(a, PropertyGFABuilding_s) == Get(b, PropertyGFABuilding_s);
    assert Get(a, PropertyGFAParking) == Get(b, PropertyGFAParking);
    assert Get(a, NumberofBuildings) == Get(b, NumberofBuildings);
    assert Get(a, NumberofFloors) == Get(b, NumberofFloors);
    assert Get(a, BuildingAge) == Get(b, BuildingAge);
    assert Get(a, PrimaryPropertyType) == Get(b, PrimaryPropertyType);
    assert Get(a, LargestPropertyUseType) == Get(b, LargestPropertyUseType);
  }

  /** The location, parking flag, ratios and cluster of `GetExtensional`. */
  lemma SameLocationAndRatios(a: BuildingData, b: BuildingData)
    requires forall f :: Get(a, f) == Get(b, f)
    ensures a.CouncilDistrictCode == b.CouncilDistrictCode
    ensures a.Neighborhood == b.Neighborhood
    ensures a.Latitude == b.Latitude
    ensures a.Longitude == b.Longitude
    ensures a.HasParking == b.HasParking
    ensures a.ParkingRatio == b.ParkingRatio
    ensures a.AreaPerFloor == b.AreaPerFloor
    ensures a.BuildingDensity == b.BuildingDensity
    ensures a.GeoCluster == b.GeoCluster
  {
    assert Get(a, CouncilDistrictCode) == Get(b, CouncilDistrictCode);
    assert Get(a, Neighborhood) == Get(b, Neighborhood);
    assert Get(a, Latitude) == Get(b, Latitude);
    assert Get(a, Longitude) == Get(b, Longitude);
    assert Get(a, HasParking) == Get(b, HasParking);
    assert Get(a, ParkingRatio) == Get(b, ParkingRatio);
    assert Get(a, AreaPerFloor) == Get(b, AreaPerFloor);
    assert Get(a, BuildingDensity) == Get(b, BuildingDensity);
    assert Get(a, GeoCluster) == Get(b, GeoCluster);
  }

  /** A valid record satisfies the declared bound of each field. */
  lemma ValidSatisfies(b: BuildingData, f: Field)
    requires Valid(b)
    ensures Satisfies(Get(b, f), Constraint(f))
  {
  }

  /** The record-level constraints are exactly the per-field declared bounds. */
  lemma ValidIffBounds(b: BuildingData)
    ensures Valid(b) <==> forall f :: Satisfies(Get(b, f), Constraint(f))
  {
    if Valid(b) {
      forall f ensures Satisfies(Get(b, f), Constraint(f)) {
        ValidSatisfies(b, f);
      }
    }
    if forall f :: Satisfies(Get(b, f), Constraint(f)) {
      BoundsValid(b);
    }
  }

  lemma BoundsValid(b: BuildingData)
    requires forall f :: Satisfies(Get(b, f), Constraint(f))
    ensures Valid(b)
  {
    assert Satisfies(Get(b, PropertyGFATotal), Constraint(PropertyGFATotal));
    assert Satisfies(Get(b, PropertyGFABuilding_s), Constraint(PropertyGFABuilding_s));
    assert Satisfies(Get(b, PropertyGFAParking), Constraint(PropertyGFAParking));
    assert Satisfies(Get(b, NumberofBuildings), Constraint(NumberofBuildings));
    assert Satisfies(Get(b, NumberofFloors), Constraint(NumberofFloors));
    assert Satisfies(Get(b, BuildingAge), Constraint(BuildingAge));
    assert Satisfies(Get(b, CouncilDistrictCode), Constraint(CouncilDistrictCode));
    assert Satisfies(Get(b, HasParking), Constraint(HasParking));
    assert Satisfies(Get(b, ParkingRatio), Constraint(ParkingRatio));
    assert Satisfies(Get(b, AreaPerFloor), Constraint(AreaPerFloor));
    assert Satisfies(Get(b, BuildingDensity), Constraint(BuildingDensity));
    assert Satisfies(Get(b, GeoCluster), Constraint(GeoCluster));
  }

  /** A JSON value the declared type accepts: ints are accepted for float fields. */
  predicate Conforms(v: Value, k: Kind) {
    match k
    case FloatKind => IsNumber(v)
    case IntKind => v.IntV?
    case StrKind => v.StrV?
  }

  /** The validated form of a conforming value: an int given for a float field becomes a float. */
  function Coerce(v: Value, k: Kind): (w: Value)
    requires Conforms(v, k)
    ensures HasKind(w, k)
    ensures IsNumber(v) ==> IsNumber(w) && Num(w) == Num(v)
    ensures HasKind(v, k) ==> w == v
  {
    if k == FloatKind && v.IntV? then RealV(v.i as real) else v
  }

  /** Whether a field's raw JSON value passes the field's type and range checks. */
  predicate Accepts(f: Field, raw: Option<Value>) {
    && raw.Some?
    && Conforms(raw.value, KindOf(f))
    && Satisfies(Coerce(raw.value, KindOf(f)), Constraint(f))
  }

  datatype Reason = Missing | WrongType | OutOfRange | NegativeInt

  datatype FieldError = FieldError(field: Field, reason: Reason)

  /**
    The extra `non_negative_ints` validator runs after a field's declared bounds have
    passed, and every field it runs on is declared `ge=0` or stricter: it never rejects
    a value the bounds accept.
   */
  lemma NonNegativeIntsRedundant(f: Field, v: Value)
    requires Conforms(v, KindOf(f))
    requires Satisfies(Coerce(v, KindOf(f)), Constraint(f))
    ensures !NonNegativeIntsRaises(f, Coerce(v, KindOf(f)))
  {
  }

  /**
    Validation of one field: missing, then type, then the declared bound, then the
    after-validator on the integer fields.
   */
  function ValidateField(f: Field, raw: Option<Value>): (r: Result<Value, FieldError>)
    ensures r.Success? <==> Accepts(f, raw)
    ensures r.Success? ==> HasKind(r.value, KindOf(f)) && r.value == Coerce(raw.value, KindOf(f))
    ensures r.Failure? ==> r.error.field == f && r.error.reason != NegativeInt
    ensures r.Failure? ==> (r.error.reason == Missing <==> raw.None?)
  {
    if raw.None? then Failure(FieldError(f, Missing))
    else if !Conforms(raw.value, KindOf(f)) then Failure(FieldError(f, WrongType))
    else
      var v := Coerce(raw.value, KindOf(f));
      if !Satisfies(v, Constraint(f)) then Failure(FieldError(f, OutOfRange))
      else if NonNegativeIntsRaises(f, v) then
        NonNegativeIntsRedundant(f, raw.value);
        Failure(FieldError(f, NegativeInt))
      else Success(v)
  }

  /** The per-field outcomes for a payload, in declaration order. */
  function FieldResults(p: Dict): seq<Result<Value, FieldError>> {
    seq(|DeclarationOrder|, i requires 0 <= i < |DeclarationOrder| =>
      ValidateField(DeclarationOrder[i], Lookup(p, WireName(DeclarationOrder[i]))))
  }

  /** The errors among a sequence of outcomes, in order. */
  function Errors(rs: seq<Result<Value, FieldError>>): (es: seq<FieldError>)
    ensures es == [] <==> forall i :: 0 <= i < |rs| ==> rs[i].Success?
    ensures forall e :: e in es <==> exists i :: 0 <= i < |rs| && rs[i] == Failure(e)
  {
    if |rs| == 0 then []
    else
      var rest := Errors(rs[1..]);
      assert forall i :: 1 <= i < |rs| ==> rs[i] == rs[1..][i - 1];
      if rs[0].Failure? then [rs[0].error] + rest else rest
  }

  /** The validated value of a field the payload supplies acceptably. */
  function Validated(p: Dict, f: Field): (v: Value)
    requires Accepts(f, Lookup(p, WireName(f)))
    ensures HasKind(v, KindOf(f))
  {
    Coerce(Lookup(p, WireName(f)).value, KindOf(f))
  }

  /** The number under a float field's wire name (0.0 when there is none). */
  function FloatAt(p: Dict, f: Field): real {
    match Lookup(p, WireName(f))
    case Some(RealV(x)) => x
    case Some(IntV(n)) => n as real
    case _ => 0.0
  }

  /** The integer under an int field's wire name (0 when there is none). */
  function IntAt(p: Dict, f: Field): int {
    match Lookup(p, WireName(f))
    case Some(IntV(n)) => n
    case _ => 0
  }

  /** The string under a str field's wire name (empty when there is none). */
  function StrAt(p: Dict, f: Field): string {
    match Lookup(p, WireName(f))
    case Some(StrV(t)) => t
    case _ => ""
  }

  /** The record a payload describes; meaningful when every field is acceptable. */
  function Assemble(p: Dict): BuildingData {
    BuildingData(
      FloatAt(p, PropertyGFATotal),
      FloatAt(p, PropertyGFABuilding_s),
      FloatAt(p, PropertyGFAParking),
      IntAt(p, NumberofBuildings),
      IntAt(p, NumberofFloors),
      IntAt(p, BuildingAge),
      StrAt(p, PrimaryPropertyType),
      StrAt(p, LargestPropertyUseType),
      IntAt(p, CouncilDistrictCode),
      StrAt(p, Neighborhood),
      FloatAt(p, Latitude),
      FloatAt(p, Longitude),
      IntAt(p, HasParking),
      FloatAt(p, ParkingRatio),
      FloatAt(p, AreaPerFloor),
      FloatAt(p, BuildingDensity),
      IntAt(p, GeoCluster))
  }

  lemma AssembleGet(p: Dict, f: Field)
    requires Accepts(f, Lookup(p, WireName(f)))
    ensures Get(Assemble(p), f) == Validated(p, f)
  {
  }

  /** The set of fields an error list names. */
  function FieldsOf(es: seq<FieldError>): set<Field> {
    set e | e in es :: e.field
  }

  /**
    Validates a JSON payload, looked up by wire name: the record when every field is
    present, of its declared type and within its declared bound; otherwise every
    failing field's error, in declaration order. Keys that are no field's wire name
    (including the internal name `PropertyGFABuilding_s`) are ignored.
   */
  function Parse(p: Dict): (r: Result<BuildingData, seq<FieldError>>)
    ensures r.Success? <==> forall f :: Accepts(f, Lookup(p, WireName(f)))
    ensures r.Success? ==> Valid(r.value)
    ensures r.Success? ==> forall f :: Get(r.value, f) == Coerce(Lookup(p, WireName(f)).value, KindOf(f))
    ensures r.Failure? ==> r.error != []
    ensures r.Failure? ==> forall f :: f in FieldsOf(r.error) <==> !Accepts(f, Lookup(p, WireName(f)))
  {
    var rs := FieldResults(p);
    var es := Errors(rs);
    ParseFacts(p, rs, es);
    if es != [] then Failure(es)
    else
      var b := Assemble(p);
      assert forall f :: Get(b, f) == Validated(p, f) by {
        forall f ensures Get(b, f) == Validated(p, f) {
          AssembleGet(p, f);
        }
      }
      ValidIffBounds(b);
      Success(b)
  }

  lemma ParseFacts(p: Dict, rs: seq<Result<Value, FieldError>>, es: seq<FieldError>)
    requires rs == FieldResults(p) && es == Errors(rs)
    ensures es == [] <==> forall f :: Accepts(f, Lookup(p, WireName(f)))
    ensures forall f :: f in FieldsOf(es) <==> !Accepts(f, Lookup(p, WireName(f)))
  {
    forall f ensures f in FieldsOf(es) <==> !Accepts(f, Lookup(p, WireName(f))) {
      if !Accepts(f, Lookup(p, WireName(f))) {
        RejectedIsReported(p, rs, es, f);
      }
      if f in FieldsOf(es) {
        ReportedIsRejected(p, rs, es, f);
      }
    }
    if es == [] {
      forall f ensures Accepts(f, Lookup(p, WireName(f))) {
        assert f !in FieldsOf(es);
      }
    } else {
      var e := es[0];
      assert e.field in FieldsOf(es);
    }
  }

  /** A field that does not validate is reported. */
  lemma RejectedIsReported(p: Dict, rs: seq<Result<Value, FieldError>>, es: seq<FieldError>, f: Field)
    requires rs == FieldResults(p) && es == Errors(rs)
    requires !Accepts(f, Lookup(p, WireName(f)))
    ensures f in FieldsOf(es)
  {
    var raw := Lookup(p, WireName(f));
    DeclarationOrderComplete(f);
    var i :| 0 <= i < |DeclarationOrder| && DeclarationOrder[i] == f;
    var r := rs[i];
    assert r == ValidateField(f, raw);
    assert r.Failure? && r.error.field == f;
    assert r == Failure(r.error);
    assert r.error in es;
  }

  /** A reported field does not validate. */
  lemma ReportedIsRejected(p: Dict, rs: seq<Result<Value, FieldError>>, es: seq<FieldError>, f: Field)
    requires rs == FieldResults(p) && es == Errors(rs)
    requires f in FieldsOf(es)
    ensures !Accepts(f, Lookup(p, WireName(f)))
  {
    var e :| e in es && e.field == f;
    var j :| 0 <= j < |rs| && rs[j] == Failure(e);
    var g := DeclarationOrder[j];
    assert rs[j] == ValidateField(g, Lookup(p, WireName(g)));
    assert g == f;
  }

  /** Validation reads a payload only through lookups of the wire names. */
  lemma ParseDependsOnLookups(p: Dict, q: Dict)
    requires forall f :: Lookup(p, WireName(f)) == Lookup(q, WireName(f))
    ensures Parse(p) == Parse(q)
  {
    assert FieldResults(p) == FieldResults(q) by {
      forall i | 0 <= i < |DeclarationOrder| ensures FieldResults(p)[i] == FieldResults(q)[i] {
        assert Lookup(p, WireName(DeclarationOrder[i])) == Lookup(q, WireName(DeclarationOrder[i]));
      }
    }
    if Parse(p).Success? {
      GetExtensional(Parse(p).value, Parse(q).value);
    }
  }

  /**
    Validation does not depend on the order of the payload's keys: two payloads without
    repeated keys that hold the same members in different orders validate alike.
   */
  lemma ParseReorder(p: Dict, q: Dict)
    requires DistinctKeys(p) && DistinctKeys(q)
    requires multiset(p) == multiset(q)
    ensures Parse(p) == Parse(q)
  {
    forall f ensures Lookup(p, WireName(f)) == Lookup(q, WireName(f)) {
      LookupReorder(p, q, WireName(f));
    }
    ParseDependsOnLookups(p, q);
  }

  /** A payload with `NumberofBuildings = 0` is rejected, and that field is reported. */
  lemma ZeroBuildingsRejected(p: Dict)
    requires Lookup(p, "NumberofBuildings") == Some(IntV(0))
    ensures Parse(p).Failure? && NumberofBuildings in FieldsOf(Parse(p).error)
  {
    assert !Accepts(NumberofBuildings, Lookup(p, WireName(NumberofBuildings)));
  }

  /** A payload without `NumberofFloors` is rejected, and that field is reported. */
  lemma MissingFloorsRejected(p: Dict)
    requires Lookup(p, "NumberofFloors").None?
    ensures Parse(p).Failure? && NumberofFloors in FieldsOf(Parse(p).error)
  {
    assert !Accepts(NumberofFloors, Lookup(p, WireName(NumberofFloors)));
  }

  /**
    The internal name is not accepted in place of the alias: a payload that supplies
    `PropertyGFABuilding_s` but not `PropertyGFABuilding(s)` is rejected for that field.
   */
  lemma InternalNameNotAccepted(p: Dict)
    requires Lookup(p, "PropertyGFABuilding(s)").None?
    ensures Parse(p).Failure? && PropertyGFABuilding_s in FieldsOf(Parse(p).error)
  {
    assert !Accepts(PropertyGFABuilding_s, Lookup(p, WireName(PropertyGFABuilding_s)));
  }

  /**
    Latitude, longitude and the three string fields carry no constraint: replacing them
    with any values keeps a valid record valid.
   */
  lemma UnconstrainedFields(b: BuildingData, lat: real, lon: real, t1: string, t2: string, n: string)
    requires Valid(b)
    ensures Valid(b.(Latitude := lat, Longitude := lon, PrimaryPropertyType := t1,
                     LargestPropertyUseType := t2, Neighborhood := n))
    ensures Constraint(Latitude) == Unbounded && Constraint(Longitude) == Unbounded
    ensures Constraint(PrimaryPropertyType) == Unbounded && Constraint(LargestPropertyUseType) == Unbounded
    ensures Constraint(Neighborhood) == Unbounded
  {
  }

  /**
    No consistency between `HasParking` and `PropertyGFAParking` is enforced: any valid
    record with no parking area stays valid when it claims to have parking.
   */
  lemma ParkingFlagUnchecked(b: BuildingData)
    requires Valid(b) && b.PropertyGFAParking == 0.0
    ensures Valid(b.(HasParking := 1))
  {
  }

  /** The request envelope `{"payload": {...}}`. */
  datatype Input = Input(payload: BuildingData)

  datatype InputError = PayloadMissing | PayloadNotObject | Invalid(errors: seq<FieldError>)

  /** Validates a request body: its `payload` member must be an object that `Parse` accepts. */
  function ParseInput(body: Dict): (r: Result<Input, InputError>)
    ensures r.Success? ==> Valid(r.value.payload)
    ensures r.Success? <==> Lookup(body, "payload").Some? && Lookup(body, "payload").value.ObjV?
                            && Parse(Lookup(body, "payload").value.members).Success?
    ensures r.Success? ==> Parse(Lookup(body, "payload").value.members) == Success(r.value.payload)
    ensures r.Failure? && Lookup(body, "payload").None? ==> r.error == PayloadMissing
  {
    match Lookup(body, "payload")
    case None => Failure(PayloadMissing)
    case Some(v) =>
      if !v.ObjV? then Failure(PayloadNotObject)
      else
        match Parse(v.members)
        case Success(b) => Success(Input(b))
        case Failure(es) => Failure(Invalid(es))
  }

  /**
    The record dumped by alias: every field under its wire name, in declaration order,
    floats as floats and ints as ints.
   */
  function Dump(b: BuildingData): (d: Dict)
    ensures |d| == |DeclarationOrder| && DistinctKeys(d)
    ensures forall i :: 0 <= i < |d| ==> d[i].0 == WireName(DeclarationOrder[i])
    ensures forall f :: Lookup(d, WireName(f)) == Some(Get(b, f))
  {
    var d := seq(|DeclarationOrder|, i requires 0 <= i < |DeclarationOrder| =>
      (WireName(DeclarationOrder[i]), Get(b, DeclarationOrder[i])));
    assert DistinctKeys(d) by {
      DeclarationOrderDistinct();
      forall i, j | 0 <= i < j < |d| ensures d[i].0 != d[j].0 {
        if d[i].0 == d[j].0 {
          WireNameInjective(DeclarationOrder[i], DeclarationOrder[j]);
        }
      }
    }
    assert forall f :: Lookup(d, WireName(f)) == Some(Get(b, f)) by {
      forall f ensures Lookup(d, WireName(f)) == Some(Get(b, f)) {
        DeclarationOrderComplete(f);
        var i :| 0 <= i < |DeclarationOrder| && DeclarationOrder[i] == f;
        LookupDistinct(d, i);
      }
    }
    d
  }

  /** The dump carries the aliased key and not the internal one. */
  lemma DumpUsesAlias(b: BuildingData)
    ensures Lookup(Dump(b), "PropertyGFABuilding(s)") == Some(RealV(b.PropertyGFABuilding_s))
    ensures Lookup(Dump(b), "PropertyGFABuilding_s").None?
  {
    var d := Dump(b);
    assert Lookup(d, WireName(PropertyGFABuilding_s)) == Some(Get(b, PropertyGFABuilding_s));
    if Lookup(d, "PropertyGFABuilding_s").Some? {
      var j :| 0 <= j < |d| && Keys(d)[j] == "PropertyGFABuilding_s";
      NoFieldWiredAsInternalAlias(DeclarationOrder[j]);
    }
  }

  lemma NoFieldWiredAsInternalAlias(f: Field)
    ensures WireName(f) != "PropertyGFABuilding_s"
  {
  }

  /** Validating the dump of a valid record gives the record back. */
  lemma DumpParse(b: BuildingData)
    requires Valid(b)
    ensures Parse(Dump(b)) == Success(b)
  {
    var d := Dump(b);
    ValidIffBounds(b);
    forall f ensures Accepts(f, Lookup(d, WireName(f))) {
      assert Coerce(Get(b, f), KindOf(f)) == Get(b, f);
    }
    var r := Parse(d);
    forall f ensures Get(r.value, f) == Get(b, f) {
    }
    GetExtensional(r.value, b);
  }
}

=== FILE: service.dfy ===
/**
  The inference endpoint: the validated record is dumped by alias, projected onto the
  feature names stored with the model (or passed through when there are none), given to
  the regressor, and the prediction is clamped to be non-negative.
 */
module Serving {
  import opened Wrappers
  import opened Values
  import opened Schema
  import Training

  /**
    The loaded service: the fitted pipeline as an opaque function of the one-row input
    table (column names with their values, in column order), and the feature names
    stored with it, if any.
   */
  datatype EnergyConsumptionService = EnergyConsumptionService(model: Dict -> real, featureNames: Option<seq<string>>)

  /** Service start-up: `custom_objects.get("feature_names", None)`. */
  function Load(model: Dict -> real, customObjects: map<string, seq<string>>): (s: EnergyConsumptionService)
    ensures s.model == model
    ensures s.featureNames.Some? <==> "feature_names" in customObjects
    ensures s.featureNames.Some? ==> s.featureNames.value == customObjects["feature_names"]
  {
    EnergyConsumptionService(model, if "feature_names" in customObjects then Some(customObjects["feature_names"]) else None)
  }

  /**
    `df[names]` on a one-row table: the named columns in the given order, each value
    looked up by name; when some names are not columns, a KeyError listing them.
   */
  function Project(data: Dict, names: seq<string>): (r: Result<Dict, seq<string>>)
    ensures r.Failure? <==> exists n :: n in names && n !in Keys(data)
    ensures r.Failure? ==> forall n :: n in r.error <==> n in names && n !in Keys(data)
    ensures r.Success? ==> Keys(r.value) == names
    ensures r.Success? ==> forall i :: 0 <= i < |names| ==> Lookup(data, names[i]) == Some(r.value[i].1)
  {
    if |names| == 0 then Success([])
    else
      var rest := Project(data, names[1..]);
      assert forall n :: n in names <==> n == names[0] || n in names[1..] by {
        assert names == [names[0]] + names[1..];
      }
      if names[0] !in Keys(data) then
        var missing := if rest.Failure? then rest.error else [];
        Failure([names[0]] + missing)
      else if rest.Failure? then rest
      else
        var v := Lookup(data, names[0]).value;
        var row := rest.value;
        assert forall i :: 1 <= i < |names| ==> names[i] == names[1..][i - 1];
        assert Keys([(names[0], v)] + row) == [names[0]] + Keys(row);
        Success([(names[0], v)] + row)
  }

  /** Projecting a dictionary onto its own keys, in order, gives it back unchanged. */
  lemma ProjectOwnKeys(data: Dict)
    requires DistinctKeys(data)
    ensures Project(data, Keys(data)) == Success(data)
  {
    var names := Keys(data);
    var r := Project(data, names);
    assert r.Success? by {
      forall n | n in names ensures Lookup(data, n).Some? {
      }
    }
    var row := r.value;
    assert |row| == |Keys(row)| == |data|;
    forall i | 0 <= i < |data| ensures row[i] == data[i] {
      LookupDistinct(data, i);
      assert Keys(row)[i] == row[i].0;
    }
    assert row == data;
  }

  /** `max(raw, 0.0)`: energy use is never negative. */
  function Clamp(raw: real): (y: real)
    ensures y >= 0.0
    ensures raw >= 0.0 ==> y == raw
    ensures raw < 0.0 ==> y == 0.0
  {
    if raw >= 0.0 then raw else 0.0
  }

  /** The prediction and the dumped record it was computed from. */
  datatype Response = Response(prediction: real, inputUsed: Dict)

  /**
    The row given to the regressor: without stored names the dump itself; with them,
    exactly the stored columns in the stored order, each holding the dump's value,
    and a KeyError when some stored name is not a key of the dump.
   */
  function ModelRow(svc: EnergyConsumptionService, data: Dict): (r: Result<Dict, seq<string>>)
    ensures svc.featureNames.None? ==> r == Success(data)
    ensures svc.featureNames.Some? ==>
      (r.Success? <==> forall n :: n in svc.featureNames.value ==> n in Keys(data))
    ensures svc.featureNames.Some? && r.Success? ==>
      && Keys(r.value) == svc.featureNames.value
      && forall i :: 0 <= i < |r.value| ==> Lookup(data, r.value[i].0) == Some(r.value[i].1)
    ensures svc.featureNames.Some? && r.Failure? ==>
      forall n :: n in r.error <==> n in svc.featureNames.value && n !in Keys(data)
  {
    match svc.featureNames
    case None => Success(data)
    case Some(names) => Project(data, names)
  }

  /** `predict`: dump by alias, reorder, predict, clamp. */
  function Predict(svc: EnergyConsumptionService, input: Input): (r: Result<Response, seq<string>>)
    ensures r.Success? ==> r.value.prediction >= 0.0
    ensures r.Success? ==>
      && ModelRow(svc, Dump(input.payload)).Success?
      && r.value.prediction == Clamp(svc.model(ModelRow(svc, Dump(input.payload)).value))
    ensures r.Failure? ==>
      ModelRow(svc, Dump(input.payload)).Failure? && r.error == ModelRow(svc, Dump(input.payload)).error
    ensures r.Success? ==> r.value.inputUsed == Dump(input.payload)
    ensures svc.featureNames.None? ==>
      r == Success(Response(Clamp(svc.model(Dump(input.payload))), Dump(input.payload)))
    ensures r.Failure? <==>
      svc.featureNames.Some? && exists n :: n in svc.featureNames.value && n !in Keys(Dump(input.payload))
  {
    var data := Dump(input.payload);
    match ModelRow(svc, data)
    case Failure(missing) => Failure(missing)
    case Success(row) =>
      var raw := svc.model(row);
      Success(Response(Clamp(raw), data))
  }

  /** The JSON response body. */
  function ResponseBody(r: Response): (v: Value)
    ensures v.ObjV? && Keys(v.members) == ["prediction_SiteEnergyUse_kBtu", "input_used"]
    ensures Lookup(v.members, "prediction_SiteEnergyUse_kBtu") == Some(RealV(r.prediction))
    ensures Lookup(v.members, "input_used") == Some(ObjV(r.inputUsed))
  {
    var members := [("prediction_SiteEnergyUse_kBtu", RealV(r.prediction)), ("input_used", ObjV(r.inputUsed))];
    assert Keys(members) == ["prediction_SiteEnergyUse_kBtu", "input_used"];
    ObjV(members)
  }

  datatype RequestError = BadRequest(reason: InputError) | ServerError(missingColumns: seq<string>)

  /**
    One request: validate the body, then predict. A success is answered with
    `ResponseBody` of the response. `body` is the `Input` object, that is the value the
    HTTP request carries under the argument name `input_data`.
   */
  function Handle(svc: EnergyConsumptionService, body: Dict): (r: Result<Response, RequestError>)
    ensures ParseInput(body).Failure? ==> r == Failure(BadRequest(ParseInput(body).error))
    ensures ParseInput(body).Success? && Predict(svc, ParseInput(body).value).Failure? ==>
      r == Failure(ServerError(Predict(svc, ParseInput(body).value).error))
    ensures r.Success? ==> r.value == Predict(svc, ParseInput(body).value).value
    ensures r.Success? <==> ParseInput(body).Success? && Predict(svc, ParseInput(body).value).Success?
    ensures r.Success? ==> r.value.prediction >= 0.0 && r.value.inputUsed == Dump(ParseInput(body).value.payload)
  {
    match ParseInput(body)
    case Failure(e) => Failure(BadRequest(e))
    case Success(input) =>
      match Predict(svc, input)
      case Failure(missing) => Failure(ServerError(missing))
      case Success(resp) => Success(resp)
  }

  /** The schema's wire names, in declaration order, are the final training features, in order. */
  lemma WireNamesAreFinalFeatures()
    ensures |DeclarationOrder| == |Training.FeaturesFinales|
    ensures forall i :: 0 <= i < |DeclarationOrder| ==> WireName(DeclarationOrder[i]) == Training.FeaturesFinales[i]
  {
    forall i | 0 <= i < |DeclarationOrder| ensures WireName(DeclarationOrder[i]) == Training.FeaturesFinales[i] {
      WireNameAt(i);
    }
  }

  /** One position of the correspondence, split in groups to keep each proof small. */
  lemma WireNameAt(i: int)
    requires 0 <= i < 17
    ensures WireName(DeclarationOrder[i]) == Training.FeaturesFinales[i]
  {
    if i < 3 { WireNameAtA(i); }
    else if i < 6 { WireNameAtB(i); }
    else if i < 9 { WireNameAtC(i); }
    else if i < 13 { WireNameAtD(i); }
    else { WireNameAtE(i); }
  }

  lemma WireNameAtA(i: int)
    requires 0 <= i < 3
    ensures WireName(DeclarationOrder[i]) == Training.FeaturesFinales[i]
  {
    if i == 0 { assert WireName(DeclarationOrder[0]) == Training.FeaturesFinales[0]; }
    else if i == 1 { assert WireName(DeclarationOrder[1]) == Training.FeaturesFinales[1]; }
    else if i == 2 { assert WireName(DeclarationOrder[2]) == Training.FeaturesFinales[2]; }
  }

  lemma WireNameAtB(i: int)
    requires 3 <= i < 6
    ensures WireName(DeclarationOrder[i]) == Training.FeaturesFinales[i]
  {
    if i == 3 { assert WireName(DeclarationOrder[3]) == Training.FeaturesFinales[3]; }
    else if i == 4 { assert WireName(DeclarationOrder[4]) == Training.FeaturesFinales[4]; }
    else if i == 5 { assert WireName(DeclarationOrder[5]) == Training.FeaturesFinales[5]; }
  }

  lemma WireNameAtC(i: int)
    requires 6 <= i < 9
    ensures WireName(DeclarationOrder[i]) == Training.FeaturesFinales[i]
  {
    if i == 6 { assert WireName(DeclarationOrder[6]) == Training.FeaturesFinales[6]; }
    else if i == 7 { assert WireName(DeclarationOrder[7]) == Training.FeaturesFinales[7]; }
    else if i == 8 { assert WireName(DeclarationOrder[8]) == Training.FeaturesFinales[8]; }
  }

  lemma WireNameAtD(i: int)
    requires 9 <= i < 13
    ensures WireName(DeclarationOrder[i]) == Training.FeaturesFinales[i]
  {
    if i == 9 { assert WireName(DeclarationOrder[9]) == Training.FeaturesFinales[9]; }
    else if i == 10 { assert WireName(DeclarationOrder[10]) == Training.FeaturesFinales[10]; }
    else if i == 11 { assert WireName(DeclarationOrder[11]) == Training.FeaturesFinales[11]; }
    else if i == 12 { assert WireName(DeclarationOrder[12]) == Training.FeaturesFinales[12]; }
  }

  lemma WireNameAtE(i: int)
    requires 13 <= i < 17
    ensures WireName(DeclarationOrder[i]) == Training.FeaturesFinales[i]
  {
    if i == 13 { assert WireName(DeclarationOrder[13]) == Training.FeaturesFinales[13]; }
    else if i == 14 { assert WireName(DeclarationOrder[14]) == Training.FeaturesFinales[14]; }
    else if i == 15 { assert WireName(DeclarationOrder[15]) == Training.FeaturesFinales[15]; }
    else if i == 16 { assert WireName(DeclarationOrder[16]) == Training.FeaturesFinales[16]; }
  }

  /** The keys of every record's dump are exactly the stored feature names, in order. */
  lemma DumpKeysAreFinalFeatures(b: BuildingData)
    ensures Keys(Dump(b)) == Training.FeaturesFinales
  {
    WireNamesAreFinalFeatures();
  }

  /**
    With the final feature list as the stored names, the reorder is the identity: for
    every record, prediction never fails, the regressor sees the dump itself, and the
    response is the clamped prediction with the dump echoed.
   */
  lemma StoredNamesPredict(svc: EnergyConsumptionService, b: BuildingData)
    requires svc.featureNames == Some(Training.FeaturesFinales)
    ensures Predict(svc, Input(b)) == Success(Response(Clamp(svc.model(Dump(b))), Dump(b)))
  {
    DumpKeysAreFinalFeatures(b);
    ProjectOwnKeys(Dump(b));
  }

  /**
    With the feature names stored at training time, the reorder is the identity: for
    every record, prediction never fails, the regressor sees the dump itself, and the
    response is the clamped prediction with the dump echoed.
   */
  lemma TrainedServicePredicts(raw: Training.Features.Frame, ts: Training.TrainingSet, model: Dict -> real, b: BuildingData)
    requires Training.PrepareTraining(raw) == Success(ts)
    ensures Predict(Load(model, Training.SaveCustomObjects(ts)), Input(b))
      == Success(Response(Clamp(model(Dump(b))), Dump(b)))
  {
    Training.TrainingShape(raw, ts);
    StoredNamesPredict(Load(model, Training.SaveCustomObjects(ts)), b);
  }

  /** The `Input` object carrying a payload. */
  function Envelope(p: Dict): Dict {
    [("payload", ObjV(p))]
  }

  lemma EnvelopePayload(p: Dict)
    ensures Lookup(Envelope(p), "payload") == Some(ObjV(p))
  {
  }

  lemma ParseInputReorder(p: Dict, q: Dict)
    requires DistinctKeys(p) && DistinctKeys(q)
    requires multiset(p) == multiset(q)
    ensures ParseInput(Envelope(p)) == ParseInput(Envelope(q))
  {
    ParseReorder(p, q);
    EnvelopePayload(p);
    EnvelopePayload(q);
  }

  /**
    Reordering the keys of a payload changes neither the validation outcome nor the
    row given to the regressor, hence not the response.
   */
  lemma HandleReorder(svc: EnergyConsumptionService, p: Dict, q: Dict)
    requires DistinctKeys(p) && DistinctKeys(q)
    requires multiset(p) == multiset(q)
    ensures Handle(svc, Envelope(p)) == Handle(svc, Envelope(q))
  {
    ParseInputReorder(p, q);
  }

  /**
    With the stored final feature list, a request fails only validation: every body
    that validates is answered with a non-negative prediction.
   */
  lemma StoredNamesHandle(svc: EnergyConsumptionService, body: Dict)
    requires svc.featureNames == Some(Training.FeaturesFinales)
    ensures Handle(svc, body).Success? <==> ParseInput(body).Success?
    ensures Handle(svc, body).Failure? ==> Handle(svc, body).error.BadRequest?
  {
    if ParseInput(body).Success? {
      StoredNamesPredict(svc, ParseInput(body).value.payload);
    }
  }

  /** The building the example client sends. */
  const ExampleRecord: BuildingData := BuildingData(
    88434.0, 88434.0, 0.0, 1, 12, 89, "Hotel", "Hotel", 7, "DOWNTOWN",
    47.6129, -122.336, 0, 0.0, 7369.5, 0.000011, 2)

  /**
    End to end on the example building: its payload validates back to it, and the
    response echoes the payload (with the aliased key) next to the clamped prediction
    of the regressor on exactly that row.
   */
  lemma ExampleRequest(svc: EnergyConsumptionService)
    requires svc.featureNames == Some(Training.FeaturesFinales)
    ensures Valid(ExampleRecord)
    ensures ParseInput(Envelope(Dump(ExampleRecord))) == Success(Input(ExampleRecord))
    ensures Handle(svc, Envelope(Dump(ExampleRecord)))
      == Success(Response(Clamp(svc.model(Dump(ExampleRecord))), Dump(ExampleRecord)))
    ensures Lookup(Dump(ExampleRecord), "PropertyGFABuilding(s)") == Some(RealV(88434.0))
  {
    DumpParse(ExampleRecord);
    EnvelopePayload(Dump(ExampleRecord));
    StoredNamesPredict(svc, ExampleRecord);
    DumpUsesAlias(ExampleRecord);
  }
}

=== FILE: training.dfy ===
/**
  The training script around the feature builder: the final feature list and its
  numeric/categorical split, the completeness filter, the projection onto the final
  features, and the feature-name list stored with the fitted pipeline.
 */
module Training {
  import opened Wrappers
  import opened Values
  import opened Features

  /** The regression target column. */
  const TargetColumn: string := "SiteEnergyUse(kBtu)"

  /** The features the model is trained on, in order. */
  const FeaturesFinales: seq<string> := [
    "PropertyGFATotal", "PropertyGFABuilding(s)", "PropertyGFAParking", "NumberofBuildings",
    "NumberofFloors", "BuildingAge", "PrimaryPropertyType", "LargestPropertyUseType",
    "CouncilDistrictCode", "Neighborhood", "Latitude", "Longitude", "HasParking",
    "ParkingRatio", "AreaPerFloor", "BuildingDensity", "GeoCluster"
  ]

  /** The features imputed by median and scaled. */
  const NumCols: seq<string> := [
    "PropertyGFATotal", "PropertyGFABuilding(s)", "PropertyGFAParking", "NumberofBuildings",
    "NumberofFloors", "BuildingAge", "Latitude", "Longitude", "HasParking",
    "ParkingRatio", "AreaPerFloor", "BuildingDensity"
  ]

  /** The features imputed by most frequent value and one-hot encoded. */
  const CatCols: seq<string> := [
    "PrimaryPropertyType", "LargestPropertyUseType", "Neighborhood", "GeoCluster", "CouncilDistrictCode"
  ]

  predicate NoDuplicates(s: seq<string>) {
    forall i, j :: 0 <= i < j < |s| ==> s[i] != s[j]
  }

  /**
    The numeric and categorical lists partition the final features: they are disjoint,
    together they name every final feature and nothing else, 12 + 5 = 17.
   */
  lemma ColumnSplit()
    ensures |NumCols| == 12 && |CatCols| == 5 && |FeaturesFinales| == 17
    ensures NoDuplicates(FeaturesFinales) && NoDuplicates(NumCols) && NoDuplicates(CatCols)
    ensures forall c :: c in NumCols ==> c !in CatCols
    ensures forall c :: c in FeaturesFinales <==> c in NumCols || c in CatCols
  {
    FinalFeaturesDistinct();
    NumColsDistinct();
    CatColsDistinct();
  }

  lemma FinalFeaturesDistinct()
    ensures NoDuplicates(FeaturesFinales)
  {
  }

  lemma NumColsDistinct()
    ensures NoDuplicates(NumCols)
  {
  }

  lemma CatColsDistinct()
    ensures NoDuplicates(CatCols)
  {
  }

  datatype TrainingError =
    | FeatureTypeError(column: string)
    | KeyError(missing: seq<string>)
    | EmptyTrainSplit(samples: nat)

  /** `ceil(0.20 * n)`: the rows `train_test_split(test_size=0.20)` holds out for testing. */
  function TestCount(n: nat): nat {
    (n + 4) / 5
  }

  /** The split raises a ValueError when it would leave no row to train on. */
  predicate SplitRaises(n: nat) {
    n - TestCount(n) <= 0
  }

  /**
    With a 20% test share, the split raises exactly on fewer than two rows; otherwise
    both parts are non-empty.
   */
  lemma SplitRaisesIff(n: nat)
    ensures SplitRaises(n) <==> n <= 1
    ensures !SplitRaises(n) ==> 1 <= TestCount(n) < n
  {
  }

  /** The wanted columns a table lacks, in the order they are asked for. */
  function MissingColumns(columns: seq<string>, wanted: seq<string>): (m: seq<string>)
    ensures forall c :: c in m <==> c in wanted && c !in columns
  {
    if |wanted| == 0 then []
    else
      var rest := MissingColumns(columns, wanted[1..]);
      assert forall c :: c in wanted <==> c == wanted[0] || c in wanted[1..] by {
        assert wanted == [wanted[0]] + wanted[1..];
      }
      if wanted[0] in columns then rest else [wanted[0]] + rest
  }

  /** A row with a (non-NaN) cell in every one of `cols`. */
  predicate Complete(row: Row, cols: seq<string>) {
    forall c :: c in cols ==> c in row
  }

  /** The complete rows, in their order. */
  function KeepComplete(rows: seq<Row>, cols: seq<string>): (r: seq<Row>)
    ensures forall x :: x in r <==> x in rows && Complete(x, cols)
    ensures forall x :: multiset(r)[x] == if Complete(x, cols) then multiset(rows)[x] else 0
    ensures |rows| == 1 ==> r == if Complete(rows[0], cols) then rows else []
    ensures |r| <= |rows|
  {
    if |rows| == 0 then []
    else
      var rest := KeepComplete(rows[1..], cols);
      assert rows == [rows[0]] + rows[1..];
      assert multiset(rows) == multiset{rows[0]} + multiset(rows[1..]);
      if Complete(rows[0], cols) then
        assert multiset([rows[0]] + rest) == multiset{rows[0]} + multiset(rest);
        [rows[0]] + rest
      else rest
  }

  /**
    The filter distributes over concatenation; with the single-row case this fixes
    the result completely: every complete row is kept once, in its original place
    in the order.
   */
  lemma {:induction false} KeepCompleteAppend(a: seq<Row>, b: seq<Row>, cols: seq<string>)
    ensures KeepComplete(a + b, cols) == KeepComplete(a, cols) + KeepComplete(b, cols)
    decreases |a|
  {
    if |a| > 0 {
      assert (a + b)[1..] == a[1..] + b;
      assert (a + b)[0] == a[0];
      KeepCompleteAppend(a[1..], b, cols);
    } else {
      assert a + b == b;
    }
  }

  /**
    `dropna(subset=...)`: the rows with a cell in every subset column survive and the
    others are dropped; a subset column the table lacks raises a KeyError.
   */
  function DropIncomplete(f: Frame, subset: seq<string>): (r: Result<Frame, TrainingError>)
    ensures r.Failure? <==> exists c :: c in subset && c !in f.columns
    ensures r.Failure? ==> r.error == KeyError(MissingColumns(f.columns, subset))
    ensures r.Success? ==> r.value.columns == f.columns
    ensures r.Success? ==> forall x :: x in r.value.rows <==> x in f.rows && Complete(x, subset)
    ensures r.Success? ==> r.value.rows == KeepComplete(f.rows, subset)
    ensures r.Success? ==>
      forall x :: multiset(r.value.rows)[x] == if Complete(x, subset) then multiset(f.rows)[x] else 0
  {
    var missing := MissingColumns(f.columns, subset);
    if missing != [] then
      assert missing[0] in missing;
      Failure(KeyError(missing))
    else Success(Frame(f.columns, KeepComplete(f.rows, subset)))
  }

  /** A row restricted to some columns. */
  function Restrict(row: Row, cols: seq<string>): (r: Row)
    ensures forall k :: k in r <==> k in row && k in cols
    ensures forall k :: k in r ==> r[k] == row[k]
  {
    map k | k in row && k in cols :: row[k]
  }

  /** `df[cols]`: the table restricted to `cols`, in that order; an absent column raises a KeyError. */
  function SelectColumns(f: Frame, cols: seq<string>): (r: Result<Frame, TrainingError>)
    ensures r.Failure? <==> exists c :: c in cols && c !in f.columns
    ensures r.Success? ==> r.value.columns == cols && |r.value.rows| == |f.rows|
    ensures r.Success? ==> forall i :: 0 <= i < |f.rows| ==> r.value.rows[i] == Restrict(f.rows[i], cols)
  {
    var missing := MissingColumns(f.columns, cols);
    if missing != [] then
      assert missing[0] in missing;
      Failure(KeyError(missing))
    else Success(Frame(cols, seq(|f.rows|, i requires 0 <= i < |f.rows| => Restrict(f.rows[i], cols))))
  }

  /** The training matrix, the target vector and the feature names stored with the model. */
  datatype TrainingSet = TrainingSet(x: Frame, y: seq<Value>, featureNames: seq<string>)

  /**
    The training script up to the names it stores: feature derivation, the
    completeness filter on the target and the final features, `X = df[features_finales]`,
    `y = df[TARGET]`, and the guard of the train/test split, whose columns are the
    stored names. Which rows go to training is not modelled: `x` and `y` hold every
    kept row.
   */
  function PrepareTraining(raw: Frame): (r: Result<TrainingSet, TrainingError>)
    ensures r.Success? ==> r.value.featureNames == r.value.x.columns == FeaturesFinales
    ensures r.Success? ==> |r.value.y| == |r.value.x.rows| >= 2
    ensures r.Failure? && r.error.EmptyTrainSplit? ==> r.error.samples <= 1
  {
    match BuildFeatures(raw)
    case Failure(TypeError(c)) => Failure(FeatureTypeError(c))
    case Success(g) =>
      match DropIncomplete(g, [TargetColumn] + FeaturesFinales)
      case Failure(e) => Failure(e)
      case Success(h) =>
        match SelectColumns(h, FeaturesFinales)
        case Failure(e) => Failure(e)
        case Success(x) =>
          SplitRaisesIff(|x.rows|);
          if SplitRaises(|x.rows|) then Failure(EmptyTrainSplit(|x.rows|))
          else
            var y := seq(|h.rows|, i requires 0 <= i < |h.rows| =>
              assert h.rows[i] in h.rows;
              h.rows[i][TargetColumn]);
            Success(TrainingSet(x, y, x.columns))
  }

  /**
    A prepared training set stores exactly the final feature list, in order. Its rows
    are the complete rows of the derived table, in order: row `i` of the matrix is the
    `i`-th complete row restricted to the final features, so it has a cell for each
    final feature and for nothing else, and target `i` is that row's target cell.
   */
  lemma TrainingShape(raw: Frame, ts: TrainingSet)
    requires PrepareTraining(raw) == Success(ts)
    ensures ts.featureNames == FeaturesFinales
    ensures BuildFeatures(raw).Success?
    ensures var kept := KeepComplete(BuildFeatures(raw).value.rows, [TargetColumn] + FeaturesFinales);
      && |ts.x.rows| == |kept| && |ts.y| == |kept|
      && forall i :: 0 <= i < |kept| ==>
        && ts.x.rows[i] == Restrict(kept[i], FeaturesFinales)
        && TargetColumn in kept[i] && ts.y[i] == kept[i][TargetColumn]
    ensures forall i, c :: 0 <= i < |ts.x.rows| ==> (c in ts.x.rows[i] <==> c in FeaturesFinales)
  {
    var g := BuildFeatures(raw).value;
    var h := DropIncomplete(g, [TargetColumn] + FeaturesFinales).value;
    forall i | 0 <= i < |h.rows|
      ensures Complete(h.rows[i], [TargetColumn] + FeaturesFinales)
    {
      assert h.rows[i] in h.rows;
    }
    forall i, c | 0 <= i < |ts.x.rows| ensures c in ts.x.rows[i] <==> c in FeaturesFinales {
      assert Complete(h.rows[i], [TargetColumn] + FeaturesFinales);
    }
  }

  /**
    Training preparation succeeds exactly when feature derivation does and its result
    has the target and every final feature as columns.
   */
  lemma PrepareTrainingSucceeds(raw: Frame)
    ensures PrepareTraining(raw).Success? <==>
      && BuildFeatures(raw).Success?
      && (forall c :: c in [TargetColumn] + FeaturesFinales ==> c in BuildFeatures(raw).value.columns)
      && |KeepComplete(BuildFeatures(raw).value.rows, [TargetColumn] + FeaturesFinales)| >= 2
  {
    if BuildFeatures(raw).Success? {
      SplitRaisesIff(|KeepComplete(BuildFeatures(raw).value.rows, [TargetColumn] + FeaturesFinales)|);
    }
  }

  /** A table with every final feature as a column is left unchanged by `build_features`. */
  lemma FinalColumnsDeriveNothing(f: Frame)
    requires forall c :: c in FeaturesFinales ==> c in f.columns
    ensures BuildFeatures(f) == Success(f)
  {
    forall d ensures !Applies(d, f.columns) {
      assert Target(d) in FeaturesFinales;
    }
    ChainNoneApply(DerivationOrder, f);
  }

  /** When every row is complete, the filter keeps them all, in order. */
  lemma {:induction false} KeepAllComplete(rows: seq<Row>, cols: seq<string>)
    requires forall i :: 0 <= i < |rows| ==> Complete(rows[i], cols)
    ensures KeepComplete(rows, cols) == rows
    decreases |rows|
  {
    if |rows| > 0 {
      assert Complete(rows[0], cols);
      assert forall i :: 0 <= i < |rows[1..]| ==> rows[1..][i] == rows[i + 1];
      KeepAllComplete(rows[1..], cols);
      assert rows == [rows[0]] + rows[1..];
    }
  }

  /**
    A table whose columns are the target and the final features and whose rows are all
    complete prepares exactly when it has at least two rows: on none or one, the
    split raises.
   */
  lemma CompleteTablePrepares(rows: seq<Row>)
    requires forall i :: 0 <= i < |rows| ==> Complete(rows[i], [TargetColumn] + FeaturesFinales)
    ensures var r := PrepareTraining(Frame([TargetColumn] + FeaturesFinales, rows));
      && (r.Success? <==> |rows| >= 2)
      && (r.Failure? ==> r.error == EmptyTrainSplit(|rows|))
  {
    var cols := [TargetColumn] + FeaturesFinales;
    var f := Frame(cols, rows);
    FinalColumnsDeriveNothing(f);
    KeepAllComplete(rows, cols);
    var h := DropIncomplete(f, cols);
    assert h.Success? && h.value.rows == rows;
    var x := SelectColumns(h.value, FeaturesFinales);
    assert forall c :: c in FeaturesFinales ==> c in h.value.columns;
    assert x.Success? && |x.value.rows| == |rows|;
    SplitRaisesIff(|rows|);
  }

  /** The model's custom metadata as saved with it. */
  function SaveCustomObjects(ts: TrainingSet): (m: map<string, seq<string>>)
    ensures "feature_names" in m && m["feature_names"] == ts.featureNames
  {
    map["feature_names" := ts.featureNames]
  }
}

=== FILE: values.dfy ===
/**
  Values exchanged by the service: JSON scalars and objects, which are also the cells
  of the training table, and insertion-ordered dictionaries (a Python `dict`, a JSON
  object, a one-row DataFrame) whose key order is observable.
 */
module Values {
  import opened Wrappers

  datatype Value =
    | IntV(i: int)
    | RealV(x: real)
    | StrV(s: string)
    | ObjV(members: seq<(string, Value)>)

  /** An insertion-ordered dictionary. */
  type Dict = seq<(string, Value)>

  /** Integers and floats are numbers; strings and objects are not. */
  predicate IsNumber(v: Value) {
    v.IntV? || v.RealV?
  }

  /** The numeric value of a number, as a real. */
  function Num(v: Value): real
    requires IsNumber(v)
  {
    if v.IntV? then v.i as real else v.x
  }

  /** The keys of a dictionary, in insertion order. */
  function Keys(d: Dict): seq<string> {
    seq(|d|, i requires 0 <= i < |d| => d[i].0)
  }

  predicate DistinctKeys(d: Dict) {
    forall i, j :: 0 <= i < j < |d| ==> d[i].0 != d[j].0
  }

  /**
    The value bound to `k`. When a key is bound twice the later binding wins, as it
    does when a JSON object with a repeated key is decoded into a dict.
   */
  function Lookup(d: Dict, k: string): (r: Option<Value>)
    ensures r.Some? <==> k in Keys(d)
    ensures r.Some? ==> (k, r.value) in d
    decreases |d|
  {
    if |d| == 0 then None
    else
      assert Keys(d) == Keys(d[..|d| - 1]) + [d[|d| - 1].0];
      if d[|d| - 1].0 == k then Some(d[|d| - 1].1)
      else Lookup(d[..|d| - 1], k)
  }

  /** In a dictionary without repeated keys, every stored pair is what lookup returns. */
  lemma {:induction false} LookupDistinct(d: Dict, i: int)
    requires DistinctKeys(d)
    requires 0 <= i < |d|
    ensures Lookup(d, d[i].0) == Some(d[i].1)
    decreases |d|
  {
    if i < |d| - 1 {
      assert d[|d| - 1].0 != d[i].0;
      var front := d[..|d| - 1];
      assert front[i] == d[i];
      LookupDistinct(front, i);
    }
  }

  /**
    Reordering a dictionary without repeated keys changes no lookup: two JSON objects
    holding the same members in different orders decode to the same dict.
   */
  lemma LookupReorder(p: Dict, q: Dict, k: string)
    requires DistinctKeys(p) && DistinctKeys(q)
    requires multiset(p) == multiset(q)
    ensures Lookup(p, k) == Lookup(q, k)
  {
    match Lookup(p, k)
    case Some(v) =>
      assert (k, v) in multiset(q);
      var j :| 0 <= j < |q| && q[j] == (k, v);
      LookupDistinct(q, j);
    case None =>
      if Lookup(q, k).Some? {
        var w := Lookup(q, k).value;
        assert (k, w) in multiset(p);
        var j :| 0 <= j < |p| && p[j] == (k, w);
        LookupDistinct(p, j);
      }
  }
}

=== FILE: wrappers.dfy ===
/** The Option and Result types shared by the whole model. */
module Wrappers {

  /** A value that may be absent: a missing key, or a NaN cell of a table. */
  datatype Option<+T> = None | Some(value: T)

  /** The outcome of an operation that may raise: `Failure` carries what the source would raise. */
  datatype Result<+T, +E> = Success(value: T) | Failure(error: E)
}
